=== FILE: README.md ===
# Olympic Warriors scheduling and scoring, in Dafny

Olympic Warriors runs a multi-discipline tournament between teams. Its rules
live inside Django `save()` hooks and ORM queries. This project restates them
as pure functions and methods over immutable records and proves properties
about them. It covers five areas:

- **Round-robin scheduling** (`RoundRobin`, `Referees`). The teams are split
  into two halves, and the halves are rotated by the circle method after each
  round. Each round is cut into batches of `n / 3` simultaneous games. Each
  game's referee is picked from the teams idle in that batch: the fewest
  games refereed wins, with a tie-break on the last round refereed. Both
  copies of the scheduler are modelled:
  - the scheduler module `schedule_round_robin_games`;
  - the older `Discipline.schedule_games`.
- **Swiss pairing** (`Swiss`). The next round pairs teams that stand next to
  each other in ascending (points, time) order.
- **Score engines**:
  - the win/draw/loss ledger of `Game.save` (`GameLedger`);
  - the Rugby try valuation (`Rugby`);
  - Dodgeball end-of-round detection (`Dodgeball`);
  - the Blindtest guess ledger (`Blindtest`).

  Each event log is a sequence that is already sorted newest first.
- **Rankings** (`Ranking`): a result's place in its discipline, its global
  points, a team's total, and the team's place in its edition.
- **`cleanString`** of the front end (`CleanString`).

The shared records are in `Entities`:
- teams, rounds, games and team results;
- `Option`/`Result`;
- `TeamResult.objects.get` with its two errors, `DoesNotExist` and
  `MultipleObjectsReturned`.

Behaviour the model keeps exactly as the code has it:

- **Referee tie-break cache.** The tie-break remembers the last round of the
  first tied best candidate and never refreshes it. It is refilled only when
  it is `None` or `0`, because both are false in Python. `TieBreak.StaleCache`
  is the program as written. `TieBreak.LongestAgo` is the rule the comments
  state (see Findings).
- **Fewer than 3 teams.** With exactly two teams the scheduler passes its
  `< 2` guard and then divides by zero. The older copy divides by zero for
  any count below 3.
- **Rotation with three teams.** With three teams the first half has one team.
  `insert(1, x)` on a list that was just emptied appends `x`, so the
  "fixed" team moves (`RoundRobin.ThreeTeamsRotateFirst`). With four or more
  teams the first team stays fixed (`RoundRobin.HalvesAt`).
- **Not every pair meets.** Rounds hold `(n / 2) / (n / 3) * (n / 3)` games.
  For odd or awkward team counts this is fewer than `n / 2`. For example,
  seven teams give two games per round, not three.
- **Referees are idle per batch, not per round.** A team playing in one
  batch of a round can referee another batch of the same round.
- **Swiss round limit.** Swiss compares the next order with `>`, so the
  round whose order equals `max_rounds` is still created. If `max_rounds` is
  unset, the comparison raises.
- **Rugby re-saves.** A try adds its value on every save of the event. No
  event is ever retracted.
- **Ranking queries ignore activity and type.** The rank queries count
  inactive results and results of every type. There is no `reveal_score`
  check.

## Model

| member | source | states |
|---|---|---|
| `Entities.LookupResult` | server/olympic_warriors/models/Discipline.py:50-51 | the single matching row's index, `DoesNotExist` exactly when no row matches, `MultipleObjectsReturned` exactly when two rows match |
| `Entities.AdjustPoints` | server/olympic_warriors/models/Blindtest.py:46-52 | only the row of the team and discipline gains `delta` and every other row is unchanged; fails exactly when the lookup fails |
| `Referees.RefereeCount` | server/olympic_warriors/schedule/round_robin.py:67-69 | at most the store's length, and zero exactly when the team referees no active game of the discipline |
| `Referees.RefereeCountAppend` | server/olympic_warriors/schedule/round_robin.py:67-69 | the refereed-game count of a concatenation of stores is the sum of the two counts |
| `Referees.RefereeCountOfOneGame` | server/olympic_warriors/schedule/round_robin.py:67-69 | a single game counts once exactly when the team refereed it, active, in the discipline, so with the append law the count is the number of such games |
| `Referees.LastRoundAsReferee` | server/olympic_warriors/schedule/round_robin.py:36-47 | the maximum round order over the team's active refereed games, attained by one of them, or -1 exactly when there are none |
| `Referees.DisciplineLastRoundAsReferee` | server/olympic_warriors/schedule/round_robin.py:28-47 | the scheduler's query looks only at games of the discipline: the largest round order among the team's active refereed games there, attained by one of them, or -1 exactly when it refereed none there |
| `Referees.LegacyLastRoundAsReferee` | server/olympic_warriors/models/Discipline.py:124-140 | the older query looks at refereed games of every discipline: the largest round order among the team's active refereed games, attained by one of them, or -1 exactly when it refereed none anywhere |
| `Referees.ScanCandidates` | server/olympic_warriors/schedule/round_robin.py:62-88 | the candidate loop with its remembered round, refilled only when empty or 0, returns a candidate with the fewest refereed games |
| `Referees.ChooseReferee` | server/olympic_warriors/schedule/round_robin.py:62-91 | the chosen referee is one of the candidates and no candidate has refereed fewer games |
| `Referees.ChooseRefereeIntended` | server/olympic_warriors/schedule/round_robin.py:71-87 | the corrected choice is a candidate that precedes every candidate in (games refereed, last round refereed) order |
| `Referees.PickReferee` | server/olympic_warriors/schedule/round_robin.py:62-91 | under either tie-break the pick is a candidate with the fewest games; under the corrected one it also refereed longest ago among those |
| `Referees.StaleTieBreakCounterexample` | server/olympic_warriors/schedule/round_robin.py:78-87 | with equal counts and last rounds 5, 3, 4, the program picks team 3 although team 2 refereed longer ago |
| `Referees.IntendedTieBreakExample` | server/olympic_warriors/schedule/round_robin.py:76-87 | on the same store the corrected choice is team 2 |
| `RoundRobin.BatchParameters` | server/olympic_warriors/schedule/round_robin.py:157-158 | for n >= 3 there is at least one game per batch and one batch per round, a round's games fit in the first half, and the idle teams cover a batch's referees |
| `RoundRobin.InsertAt` | server/olympic_warriors/schedule/round_robin.py:189 | Python's `insert` adds exactly one element; at an index in range it lands at that index with the elements before and after it in their old order, and past the end it is appended |
| `RoundRobin.Rotate` | server/olympic_warriors/schedule/round_robin.py:188-189 | the rotation keeps both lengths and the multiset of teams, and keeps the first team when the first half has two or more |
| `RoundRobin.RotateKeepsTeams` | server/olympic_warriors/schedule/round_robin.py:188-189 | the two list operations keep both lengths and every team |
| `RoundRobin.RotatePositions` | server/olympic_warriors/schedule/round_robin.py:188-189 | where the rotation puts each team: with two or more teams in the first half the head of the second half moves in behind its fixed head, the rest of the first half shifts one place, and the last team of the first half joins the end of the second half; with one, the head of the second half replaces it |
| `RoundRobin.Reverse` | server/olympic_warriors/schedule/round_robin.py:169 | `reverse()` puts element i at position n-1-i, keeping the length and the multiset |
| `RoundRobin.HalvesAt` | server/olympic_warriors/schedule/round_robin.py:166-189 | the halves used in round r have sizes n/2 and n - n/2 and hold exactly the teams, and with four or more teams the first team stays at the head of the first half in every round |
| `RoundRobin.ThreeTeamsRotateFirst` | server/olympic_warriors/schedule/round_robin.py:188-189 | with three teams the first half after one rotation is the third team |
| `RoundRobin.HalvesAtDistinct` | server/olympic_warriors/schedule/round_robin.py:164-169 | with distinct teams the halves of every round are distinct and drawn from the teams |
| `RoundRobin.Remove` | server/olympic_warriors/schedule/round_robin.py:134-135 | removal drops exactly the value, keeps distinctness, and shortens a distinct sequence by one |
| `RoundRobin.CreateGames` | server/olympic_warriors/schedule/round_robin.py:123-136 | game k of the batch pairs `l1[start+k]` with `l2[start+k]`, team1 standing in as referee, and the teams left are exactly those playing none of the batch's games |
| `RoundRobin.AssignReferees` | server/olympic_warriors/schedule/round_robin.py:51-91 | each game keeps its teams and gets a referee from the available teams, no two games share a referee, and game k's referee has refereed no more games than any team still available at step k, counted on the store the query sees then (the earlier games with their referees, the later ones with team1 standing in); under the corrected tie-break it also refereed no later among those with as few games |
| `RoundRobin.PlayBatch` | server/olympic_warriors/schedule/round_robin.py:94-140 | the batch pairs `l1[start+k]` with `l2[start+k]`, every referee is a team playing in no game of the batch and refereeing no other game of it, and each referee was the fewest-games choice among the teams sitting out and not yet taken, counted on the store plus the batch as saved so far |
| `RoundRobin.PlayRound` | server/olympic_warriors/schedule/round_robin.py:171-185 | a round has `(n/2)/(n/3)` batches, batch b takes games b*sg .. b*sg+sg-1 of that round's halves with idle referees chosen fairly against the store plus the batches before it, and the store grows by exactly the round's games |
| `RoundRobin.ScheduleRounds` | server/olympic_warriors/schedule/round_robin.py:171-189 | the requested number of rounds, round r following the halves rotated r times, each batch's referees chosen fairly against the history plus every game created before it |
| `RoundRobin.RoundOfPlan` | server/olympic_warriors/schedule/round_robin.py:171-189 | in a plan built round by round, every round r has `(n/2)/(n/3)` batches following the halves rotated r times, with referees chosen fairly against the history plus the rounds before it |
| `RoundRobin.PlanFollowsAppend` | server/olympic_warriors/schedule/round_robin.py:171-189 | a plan grown by one round follows the schedule exactly when the plan did and the new round has `(n/2)/(n/3)` batches following the halves of its order, with referees chosen fairly against the history and every earlier game |
| `RoundRobin.ScheduleRoundRobin` | server/olympic_warriors/schedule/round_robin.py:143-189 | fewer than two teams fail before anything, two teams divide by zero, three or more succeed with `max_rounds` defaulted to n-1 when unset or zero and that many rounds of well-formed batches whose referees are chosen fairly over the discipline's games |
| `RoundRobin.LegacyScheduleGames` | server/olympic_warriors/models/Discipline.py:224-257 | the older copy divides by zero exactly when n < 3 and otherwise plays n-1 rounds of well-formed batches whose referees are chosen fairly over the games of every discipline |
| `Swiss.LastActiveOrder` | server/olympic_warriors/schedule/swiss.py:32-33 | the largest order among the discipline's active rounds, attained by one of them, or none exactly when there are no such rounds |
| `Swiss.NextOrder` | server/olympic_warriors/schedule/swiss.py:32-34 | the next order exceeds every active round's order and is one past an existing one, or 0 exactly when there is none |
| `Swiss.PairUp` | server/olympic_warriors/schedule/swiss.py:43-53 | m standings give m/2 games, and game k pairs positions 2k and 2k+1 with team1 as referee |
| `Swiss.SwissNextRound` | server/olympic_warriors/schedule/swiss.py:25-55 | an unset `max_rounds` raises; an order above it creates nothing; otherwise a new active round with m/2 games of adjacent, ascending standings |
| `Swiss.PairUpPlaysInOrder` | server/olympic_warriors/schedule/swiss.py:40-46 | the players of the round, in order, are the standings without an odd last team |
| `Swiss.NoTeamPlaysTwice` | server/olympic_warriors/schedule/swiss.py:43-46 | with distinct teams no team plays twice in the round, and an odd last team does not play |
| `Swiss.RoundAtMaxRoundsIsCreated` | server/olympic_warriors/schedule/swiss.py:37-41 | with `max_rounds` 0 round 0 is still created, then nothing more |
| `GameLedger.SaveDelta` | server/olympic_warriors/models/Discipline.py:57-88 | a new game adds its outcome's share (3/0, 1/1, 0/3); an updated game adds exactly the difference between the old and the new outcome's shares, which is zero when the outcome is unchanged |
| `GameLedger.ReplayMatchesOutcome` | server/olympic_warriors/models/Discipline.py:46-90 | after any sequence of saves the game has contributed exactly the share of its current outcome |
| `GameLedger.SaveGame` | server/olympic_warriors/models/Discipline.py:46-90 | a zero delta leaves the results alone; otherwise only the two teams' rows of the discipline move, each by its team's delta; it fails exactly when a non-zero delta meets a failing lookup, with team1's lookup error taking precedence; a game of a team against itself moves its row by team2's delta only, since team2's write lands last |
| `GameLedger.UnchangedScoresTouchNothing` | server/olympic_warriors/models/Discipline.py:61-65 | re-saving a game with unchanged scores leaves every result as it was |
| `Rugby.TryScan` | server/olympic_warriors/models/Rugby.py:43-57 | the scan never raises the value and removes at most one point per event read |
| `Rugby.TryPoints` | server/olympic_warriors/models/Rugby.py:37-57 | a try is worth at most 3, and exactly 3 with no earlier event |
| `Rugby.StopIndex` | server/olympic_warriors/models/Rugby.py:45-53 | the position of the newest try, out-of-bounds, or own-team tackle or foul, with none before it |
| `Rugby.TryScanCountsTackles` | server/olympic_warriors/models/Rugby.py:41-57 | the scan subtracts exactly the opposing tackles read before the first stopping event |
| `Rugby.TryValue` | server/olympic_warriors/models/Rugby.py:37-57 | a try is worth 3 less the opposing tackles since the last stopping event |
| `Rugby.SaveRugbyEvent` | server/olympic_warriors/models/Rugby.py:59-73 | a try adds its value to the scorer's side only, team2 whenever the scorer is not team1; any other event changes nothing |
| `Rugby.TryRaisesTotalByAtMostThree` | server/olympic_warriors/models/Rugby.py:63-71 | a saved try raises the total score by at most 3, and by exactly 3 with no opposing tackle since the last stop |
| `Dodgeball.EndOfRoundScan` | server/olympic_warriors/models/Dodgeball.py:41-58 | the countdown can only fail on a missing second player, and never fails when the pivot and every hit's victim are known |
| `Dodgeball.SinceNewRound` | server/olympic_warriors/models/Dodgeball.py:51-52 | the longest prefix of the log without a new round |
| `Dodgeball.ScanCountsOuts` | server/olympic_warriors/models/Dodgeball.py:41-58 | the countdown from `live` answers true exactly when at least `live` qualifying events come before the first new round |
| `Dodgeball.LiveTrace` | server/olympic_warriors/models/Dodgeball.py:41-58 | the live counts the scan goes through never exceed the start, never rise, and reach 0 only at the last event read |
| `Dodgeball.ScanFollowsTrace` | server/olympic_warriors/models/Dodgeball.py:41-58 | when every hit names its second player, the countdown answers true exactly when the live counts it goes through end at 0 |
| `Dodgeball.LiveTraceCountsOuts` | server/olympic_warriors/models/Dodgeball.py:41-58 | each live count the scan reads down to is the starting count less the players put out by the events read up to that point |
| `Dodgeball.IsHitEndOfRound` | server/olympic_warriors/models/Dodgeball.py:37-58 | a hit ends the round exactly when three hits on, or fouls by, the victim's side come before the last new round |
| `Dodgeball.IsFoulEndOfRound` | server/olympic_warriors/models/Dodgeball.py:60-81 | a foul ends the round exactly when three hits on, or fouls by, the fouler's side come before the last new round |
| `Dodgeball.NewRoundFirstMeansNotOver` | server/olympic_warriors/models/Dodgeball.py:51-52 | a new round read first means neither check ends the round |
| `Dodgeball.SaveDodgeballEvent` | server/olympic_warriors/models/Dodgeball.py:83-105 | a round-ending hit scores one for the thrower's side, a round-ending foul one for the other side; anything else leaves the game unchanged |
| `Dodgeball.SaveScoresAtMostOne` | server/olympic_warriors/models/Dodgeball.py:87-105 | a save changes at most one score, and that one by exactly +1 |
| `Dodgeball.EndOfRoundScanAsWritten` | server/olympic_warriors/models/Dodgeball.py:41-58 | the scan as spelled never answers false on a log with an out-of-bounds or new-round event, and agrees with the intended scan on logs without them |
| `Dodgeball.NewRoundTypoCounterexample` | server/olympic_warriors/models/Dodgeball.py:51-52 | on a log holding one new-round event the intended scan says false and the scan as spelled raises |
| `Blindtest.EnrolledIds` | server/olympic_warriors/models/Blindtest.py:22 | exactly the ids of the active teams of the edition, without repeats when team ids are distinct |
| `Blindtest.InitBlindtestResults` | server/olympic_warriors/models/Blindtest.py:16-26 | one active points result worth 0 for the discipline exactly for each active team of the edition, one row per team and, with distinct team ids, no team twice |
| `Blindtest.InitRowsAreFound` | server/olympic_warriors/models/Blindtest.py:16-52 | after the rows are created once on a store without rows of the blindtest, every enrolled team's guess lookup finds its single row |
| `Blindtest.SaveBlindtest` | server/olympic_warriors/models/Blindtest.py:16-26 | every save keeps the existing results and appends one row per active team of the edition |
| `Blindtest.SaveBlindtestGuarded` | server/olympic_warriors/models/Blindtest.py:16-26 | the save with a first-save guard leaves a stored blindtest's results alone and otherwise appends the rows as the unguarded save does |
| `Blindtest.ResaveDuplicatesResults` | server/olympic_warriors/models/Blindtest.py:16-52 | saving the blindtest twice leaves two rows for every active team, so its lookup raises `MultipleObjectsReturned` |
| `Blindtest.ResaveBreaksGuesses` | server/olympic_warriors/models/Blindtest.py:16-66 | after a double save, a valid guess of an active team raises `MultipleObjectsReturned` |
| `Blindtest.GuardedResaveKeepsOneRow` | server/olympic_warriors/models/Blindtest.py:16-52 | with a first-save-only guard, the lookup succeeds after the first save and still after a second |
| `Blindtest.GuessDelta` | server/olympic_warriors/models/Blindtest.py:54-66 | a new guess adds 1 exactly when valid, and an update moves the old flag's worth to the new flag's worth |
| `Blindtest.SaveGuess` | server/olympic_warriors/models/Blindtest.py:46-68 | the guess is stored, only the guessing team's result of the blindtest moves by the delta, and it fails exactly when a non-zero delta finds no single result |
| `Blindtest.InitIsConsistent` | server/olympic_warriors/models/Blindtest.py:22-26 | a fresh blindtest's points equal each team's (zero) accepted guesses |
| `Blindtest.ValidGuessesAfterSave` | server/olympic_warriors/models/Blindtest.py:54-68 | storing a guess changes its team's accepted-guess count by the delta and other teams' not at all |
| `Blindtest.SaveGuessKeepsConsistent` | server/olympic_warriors/models/Blindtest.py:46-68 | each save keeps every team's points equal to its number of accepted guesses |
| `Blindtest.ToggleRestoresPoints` | server/olympic_warriors/models/Blindtest.py:58-63 | marking a guess valid and then invalid again restores every result |
| `Ranking.MorePoints` | server/olympic_warriors/models/Team.py:44-50 | at most the store's length, zero exactly when no result of the discipline has more points |
| `Ranking.LessTime` | server/olympic_warriors/models/Team.py:39-43 | at most the store's length, zero exactly when no result of the discipline is faster |
| `Ranking.CountsAppend` | server/olympic_warriors/models/Team.py:39-63 | the better-points, better-time and active-result counts of a concatenation are the sums of the two counts |
| `Ranking.CountsOfOneRow` | server/olympic_warriors/models/Team.py:39-63 | a single row counts once exactly when it matches the query's filter, so with the append law each count is the number of matching rows |
| `Ranking.Rank` | server/olympic_warriors/models/Team.py:32-52 | rank 0 exactly for untyped results; a points or time result ranks first exactly when no result of its discipline beats it |
| `Ranking.RankSnoc` | server/olympic_warriors/models/Team.py:32-52 | the competition rank: a ranked result is first on an empty store and each further result that beats it lowers it by exactly one, so it is one more than the number of results that beat it (points 10, 10, 5 rank 1, 1, 3) |
| `Ranking.RankBounds` | server/olympic_warriors/models/Team.py:39-50 | a ranked result in the store ranks between 1 and its discipline's result count |
| `Ranking.RankRespectsScores` | server/olympic_warriors/models/Team.py:39-50 | a better score never ranks below a worse one, and equal scores share a rank |
| `Ranking.ActiveInDiscipline` | server/olympic_warriors/models/Team.py:61-63 | the active results counted are among the discipline's results |
| `Ranking.PlacePoints` | server/olympic_warriors/models/Team.py:64-68 | first place and the unranked place 0 both earn the count plus 2, places 2 and 3 earn the count less the place plus 2, and places from 4 on earn the count less the place |
| `Ranking.PlacePointsDecrease` | server/olympic_warriors/models/Team.py:64-70 | a better place earns strictly more points |
| `Ranking.GlobalPoints` | server/olympic_warriors/models/Team.py:54-70 | a result ranked first or unranked earns its discipline's active count plus 2, second or third the count less its rank plus 2, fourth and below the count less its rank; never more than the count plus 2 |
| `Ranking.TotalPoints` | server/olympic_warriors/models/Team.py:88-99 | a team with no result in its edition totals 0 |
| `Ranking.TotalOfOnlyRow` | server/olympic_warriors/models/Team.py:88-99 | a team with a single result in its edition totals that result's global points |
| `Ranking.OneRowSum` | server/olympic_warriors/models/Team.py:93-99 | summing over rows of which exactly one belongs to the team in the edition gives that row's global points |
| `Ranking.SumGlobalSingleton` | server/olympic_warriors/models/Team.py:93-99 | one row adds its global points when it belongs to the team in the edition and nothing otherwise, which with the append law fixes the sum of every sequence |
| `Ranking.SumGlobalAppend` | server/olympic_warriors/models/Team.py:93-99 | the total over concatenated rows is the sum of the totals |
| `Ranking.Ahead` | server/olympic_warriors/models/Team.py:108-114 | at most the number of teams, and zero exactly when no active edition team has a greater total |
| `Ranking.AheadAppend` | server/olympic_warriors/models/Team.py:108-114 | the teams ahead in a concatenation of team lists are the sum of those ahead in each |
| `Ranking.AheadOfOneTeam` | server/olympic_warriors/models/Team.py:108-114 | a single team is ahead exactly when it competes in the edition with a greater total, so with the append law the count is the number of such teams |
| `Ranking.TeamRanking` | server/olympic_warriors/models/Team.py:101-114 | the ranking is at least 1 and is 1 exactly when no active team of the edition has a greater total |
| `Ranking.TeamRankingSnoc` | server/olympic_warriors/models/Team.py:101-114 | the ranking starts at 1 and each further competing team with a greater total lowers it by exactly one, so it is one more than the number of teams ahead |
| `Ranking.TeamRankingRespectsTotals` | server/olympic_warriors/models/Team.py:108-114 | a team with at least another's total never ranks below it |
| `Ranking.AheadExcludesSelf` | server/olympic_warriors/models/Team.py:108-114 | a competing team never counts itself, so its ranking is at most the number of teams |
| `CleanString.ToLower` | front/src/lib/utils.js:2 | an upper-case letter becomes the lower-case letter at the same place in the alphabet, the result is never upper-case, and only upper-case letters change |
| `CleanString.ToUpper` | front/src/lib/utils.js:3 | a lower-case letter becomes the upper-case letter at the same place in the alphabet, the result is never lower-case, and only lower-case letters change |
| `CleanString.CaseRoundTrip` | front/src/lib/utils.js:2-3 | upper-casing then lower-casing a letter gives its lower case, and the other way round |
| `CleanString.RemovedCount` | front/src/lib/utils.js:2 | zero exactly when nothing is removable, the full length exactly when everything is |
| `CleanString.Strip` | front/src/lib/utils.js:2 | the result holds no white space or apostrophe and is shorter by exactly the removed characters |
| `CleanString.StripAppend` | front/src/lib/utils.js:2 | stripping distributes over concatenation |
| `CleanString.StripKeepsClean` | front/src/lib/utils.js:2 | a string with nothing to remove is returned unchanged |
| `CleanString.Clean` | front/src/lib/utils.js:1-4 | no white space or apostrophe remains, the length drops by exactly the removed characters, the result is empty exactly when everything was removed, each character is the stripped input's up to case, the first is not lower-case and the rest are not upper-case |
| `CleanString.CleanIdempotent` | front/src/lib/utils.js:1-4 | cleaning twice is cleaning once |

## Left out

- Persistence is not modelled: the ORM, `save()` chains and `deepcopy`. Tables become sequences of records, and each query is a function over them.
- The game ledger is not chained to game creation. Every game the schedulers create is a 0-0 draw, so `Game.save` adds 1/1 to both teams' results. Every score change saved by the Rugby and Dodgeball engines also goes through the ledger. The model keeps `GameLedger.SaveGame` separate from the schedulers and the score engines.
- Set iteration order is not modelled. The candidate set is walked in the order of the team list, whereas CPython's set order is an implementation detail.
- Errors from lookups that always succeed for well-formed data are not modelled. These are `Team.objects.get(id=...)` in the schedulers and in Swiss, and `Game.objects.get` in the event engines.
- `.values()` in `Rugby.py:42` and `Dodgeball.py:42,65` yields dicts, so the attribute access that follows would fail. The model reads the records as intended.
- Swiss reads `discipline.rounds` and `discipline.max_rounds`, neither of which `Discipline` declares. Both schedulers take `max_rounds` as an optional input and Swiss takes the rounds as a sequence.
- Nullable `points`/`time` are not modelled. A time of day is a number of seconds.
- `Rugby.TryScan`: the source's `case _` branch, for codes outside the four event types, is not modelled.
- The event being saved is not appended to the log it scans. The log is a parameter, which covers both a first save and a re-save.
- `Dodgeball.EndOfRoundScan`: `AttributeError` is reported for a missing second player of any hit that is read, and for a missing pivot. Which of the two expressions raises first is not distinguished.
- `Blindtest.SaveGuessKeepsConsistent`: requires a stored guess to keep its team. The source debits nothing from the old team when a guess changes team, so the invariant does not hold then.
- `CleanString.Clean`: case mapping is ASCII only. JavaScript's full Unicode `toLowerCase`/`toUpperCase` can change non-ASCII letters and even lengths. UTF-16 code units (`charAt` on a surrogate pair) are not modelled either.
- `Discipline.get_ranking` (its body is `pass`), the REST views, the admin, the player-rating ingestion and the HTTP client `requestAPI` are outside this model.

## Findings

| source | as written | input that shows it | evidently intended | confidence | as-written member | corrected member |
|---|---|---|---|---|---|---|
| server/olympic_warriors/schedule/round_robin.py:78-87 | on a tie in games refereed, the candidate is compared against the last round of the first tied best, cached and never refreshed when the best changes | candidates 1, 2, 3, each with one refereed game, last refereed in rounds 5, 3, 4: team 3 is chosen | the team that refereed longest ago among those with the fewest games, team 2 here | medium, not executed | `Referees.StaleTieBreakCounterexample` | `Referees.ChooseRefereeIntended` |
| server/olympic_warriors/models/Dodgeball.py:51 | both end-of-round scans match `DodgeballEventTypes.NEW`, which does not exist (the member is `NEW_ROUND`), so reading an out-of-bounds or new-round event raises `AttributeError` | a hit whose earlier log holds a single new-round event | stop at the newest new round with "not over", skip out-of-bounds events | high, not executed | `Dodgeball.NewRoundTypoCounterexample` | `Dodgeball.ScanCountsOuts` |
| server/olympic_warriors/models/Blindtest.py:16-26 | `Blindtest.save` creates a 0-point result for every active team on every save, with no `self.pk` check such as `Game.save` makes, so a second save duplicates each team's result | save the blindtest twice, then save a valid guess of an active team: `TeamResult.objects.get` raises `MultipleObjectsReturned` | create the results only on the first save | medium, not executed | `Blindtest.ResaveBreaksGuesses` | `Blindtest.GuardedResaveKeepsOneRow` |

=== FILE: blindtest.dfy ===
/**
 * Blindtest scoring: every active team of the edition starts with a points
 * result of 0, and each guess moves its team's points by one when its
 * validity flag is switched on or off.
 */
module Blindtest {
  import opened Entities

  /** Primary key of a saved guess. */
  type GuessId = nat

  /** A `BlindtestGuess`: the guessing team and whether the answer was
      accepted. */
  datatype Guess = Guess(team: TeamId, valid: bool)

  /** The team takes part in edition `edition`. */
  predicate Enrolled(t: Team, edition: EditionId) {
    t.active && t.edition == edition
  }

  /** The team table: no primary key occurs twice. */
  predicate UniqueIds(teams: seq<Team>) {
    forall i, j :: 0 <= i < j < |teams| ==> teams[i].id != teams[j].id
  }

  /** `Team.objects.filter(edition=edition, is_active=True)`, as ids, in the
      order of `teams`. */
  function EnrolledIds(teams: seq<Team>, edition: EditionId): (ids: seq<TeamId>)
    ensures |ids| <= |teams|
    ensures forall t :: t in ids <==> exists j :: 0 <= j < |teams| && Enrolled(teams[j], edition) && teams[j].id == t
    ensures UniqueIds(teams) ==> Distinct(ids)
  {
    if |teams| == 0 then []
    else
      var rest := EnrolledIds(teams[1..], edition);
      assert forall j :: 1 <= j < |teams| ==> teams[j] == teams[1..][j - 1];
      assert UniqueIds(teams) ==> UniqueIds(teams[1..]) && teams[0].id !in rest;
      if Enrolled(teams[0], edition) then
        assert UniqueIds(teams) ==> Distinct([teams[0].id] + rest) by {
          if UniqueIds(teams) {
            forall i, j | 0 <= i < j < |[teams[0].id] + rest|
              ensures ([teams[0].id] + rest)[i] != ([teams[0].id] + rest)[j]
            {
              assert ([teams[0].id] + rest)[j] == rest[j - 1];
            }
          }
        }
        [teams[0].id] + rest
      else rest
  }

  /** `Blindtest.save`: one points result worth 0 for each active team of
      the edition. */
  function InitBlindtestResults(teams: seq<Team>, edition: EditionId, d: DisciplineId): (rows: seq<TeamResult>)
    ensures forall t :: (exists i :: 0 <= i < |rows| && rows[i].team == t) <==> t in EnrolledIds(teams, edition)
    ensures forall i :: 0 <= i < |rows| ==>
      rows[i].discipline == d && rows[i].edition == edition && rows[i].kind == Points && rows[i].points == 0 && rows[i].active
    ensures |rows| == |EnrolledIds(teams, edition)|
    ensures UniqueIds(teams) ==> forall i, j :: 0 <= i < j < |rows| ==> rows[i].team != rows[j].team
  {
    var ids := EnrolledIds(teams, edition);
    var rows := seq(|ids|, i requires 0 <= i < |ids| => TeamResult(ids[i], d, edition, Points, 0, 0, true));
    assert forall t :: t in ids ==> exists i :: 0 <= i < |rows| && rows[i].team == t by {
      forall t | t in ids ensures exists i :: 0 <= i < |rows| && rows[i].team == t {
        var i :| 0 <= i < |ids| && ids[i] == t;
        assert rows[i].team == t;
      }
    }
    rows
  }

  /** With one row per enrolled team, the guess lookup of every enrolled
      team finds its row, provided the store held none for the discipline
      before. */
  lemma {:induction false} InitRowsAreFound(results: seq<TeamResult>, teams: seq<Team>, edition: EditionId, d: DisciplineId, t: TeamId)
    requires UniqueIds(teams) && t in EnrolledIds(teams, edition)
    requires forall i :: 0 <= i < |results| ==> results[i].discipline != d
    ensures LookupResult(results + InitBlindtestResults(teams, edition, d), t, d).Ok?
  {
    var rows := InitBlindtestResults(teams, edition, d);
    var all := results + rows;
    var k :| 0 <= k < |rows| && rows[k].team == t;
    assert IsRowOf(all[|results| + k], t, d);
    forall i, j | 0 <= i < j < |all| && IsRowOf(all[i], t, d) ensures !IsRowOf(all[j], t, d) {
      assert i >= |results| && all[i] == rows[i - |results|];
      assert all[j] == rows[j - |results|];
    }
  }

  /** `Blindtest.save` as written: every save, the first or a later one,
      adds a fresh 0-point result for each active team of the edition. */
  function SaveBlindtest(results: seq<TeamResult>, teams: seq<Team>, edition: EditionId, d: DisciplineId): (r: seq<TeamResult>)
    ensures |r| == |results| + |EnrolledIds(teams, edition)|
    ensures r[..|results|] == results
  {
    results + InitBlindtestResults(teams, edition, d)
  }

  /** A second save of the blindtest leaves two results for every active
      team, so each later lookup of a guess raises `MultipleObjectsReturned`. */
  lemma ResaveDuplicatesResults(results: seq<TeamResult>, teams: seq<Team>, edition: EditionId, d: DisciplineId, t: TeamId)
    requires t in EnrolledIds(teams, edition)
    ensures LookupResult(SaveBlindtest(SaveBlindtest(results, teams, edition, d), teams, edition, d), t, d)
      == Err(MultipleObjectsReturned)
  {
    var rows := InitBlindtestResults(teams, edition, d);
    var once := results + rows;
    var twice := once + rows;
    var k :| 0 <= k < |rows| && rows[k].team == t;
    assert twice[|results| + k] == rows[k] && twice[|once| + k] == rows[k];
    assert IsRowOf(twice[|results| + k], t, d) && IsRowOf(twice[|once| + k], t, d);
  }

  /** A valid guess after the blindtest was saved twice raises. */
  lemma ResaveBreaksGuesses(results: seq<TeamResult>, teams: seq<Team>, edition: EditionId, d: DisciplineId, id: GuessId, t: TeamId)
    requires t in EnrolledIds(teams, edition)
    ensures SaveGuess(Board(SaveBlindtest(SaveBlindtest(results, teams, edition, d), teams, edition, d), map[]), d, id, Guess(t, true))
      == Err(MultipleObjectsReturned)
  {
    ResaveDuplicatesResults(results, teams, edition, d, t);
  }

  /** `Blindtest.save` guarded by a `self.pk` check as `Game.save` is:
      only the first save (`stored` false) creates the results. */
  function SaveBlindtestGuarded(results: seq<TeamResult>, teams: seq<Team>, edition: EditionId, d: DisciplineId, stored: bool): (r: seq<TeamResult>)
    ensures stored ==> r == results
    ensures !stored ==> r == SaveBlindtest(results, teams, edition, d)
  {
    if stored then results else results + InitBlindtestResults(teams, edition, d)
  }

  /** With the guard, saving the blindtest again keeps exactly one result per
      active team, so every team's guesses find their result. */
  lemma GuardedResaveKeepsOneRow(results: seq<TeamResult>, teams: seq<Team>, edition: EditionId, d: DisciplineId, t: TeamId)
    requires UniqueIds(teams) && t in EnrolledIds(teams, edition)
    requires forall i :: 0 <= i < |results| ==> results[i].discipline != d
    ensures LookupResult(SaveBlindtestGuarded(results, teams, edition, d, false), t, d).Ok?
    ensures LookupResult(SaveBlindtestGuarded(SaveBlindtestGuarded(results, teams, edition, d, false), teams, edition, d, true), t, d).Ok?
  {
    InitRowsAreFound(results, teams, edition, d, t);
  }

  /** 1 for an accepted guess, 0 otherwise. */
  function Worth(valid: bool): int {
    if valid then 1 else 0
  }

  /** The change `BlindtestGuess.save` makes to the team's points, given the
      stored flag (`None` for a new guess) and the flag being saved. */
  function GuessDelta(previous: Option<bool>, valid: bool): (delta: int)
    ensures previous.None? ==> delta == Worth(valid)
    ensures previous.Some? ==> Worth(previous.value) + delta == Worth(valid)
    ensures -1 <= delta <= 1
  {
    match previous
    case None => if valid then 1 else 0
    case Some(was) =>
      if was && !valid then -1
      else if !was && valid then 1
      else 0
  }

  /** The store of a blindtest: the results and the guesses saved so far. */
  datatype Board = Board(results: seq<TeamResult>, guesses: map<GuessId, Guess>)

  /** `BlindtestGuess.save` for the guess `id` of discipline `d`: the points
      of the guessing team's result move by the delta (only when it is not
      zero, so a missing result raises only then), and the guess is stored. */
  function SaveGuess(b: Board, d: DisciplineId, id: GuessId, g: Guess): (r: Result<Board, LookupError>)
    ensures r.Ok? ==> r.value.guesses == b.guesses[id := g]
    ensures r.Ok? ==> |r.value.results| == |b.results|
    ensures r.Ok? ==> forall i :: 0 <= i < |b.results| ==>
      var delta := GuessDelta(if id in b.guesses then Some(b.guesses[id].valid) else None, g.valid);
      r.value.results[i] == if IsRowOf(b.results[i], g.team, d) then b.results[i].(points := b.results[i].points + delta) else b.results[i]
    ensures r.Err? <==>
      GuessDelta(if id in b.guesses then Some(b.guesses[id].valid) else None, g.valid) != 0 && LookupResult(b.results, g.team, d).Err?
  {
    var previous := if id in b.guesses then Some(b.guesses[id].valid) else None;
    var delta := GuessDelta(previous, g.valid);
    if delta == 0 then Ok(Board(b.results, b.guesses[id := g]))
    else
      match AdjustPoints(b.results, g.team, d, delta)
      case Err(e) => Err(e)
      case Ok(rows) => Ok(Board(rows, b.guesses[id := g]))
  }

  /** The guesses of team `t` that are currently accepted. */
  function ValidGuesses(guesses: map<GuessId, Guess>, t: TeamId): set<GuessId> {
    set id | id in guesses && guesses[id].team == t && guesses[id].valid
  }

  /** Every result of discipline `d` holds as many points as its team has
      accepted guesses. */
  ghost predicate Consistent(b: Board, d: DisciplineId) {
    forall i :: 0 <= i < |b.results| && b.results[i].discipline == d ==>
      b.results[i].points == |ValidGuesses(b.guesses, b.results[i].team)|
  }

  /** A fresh blindtest with no guess is consistent. */
  lemma InitIsConsistent(teams: seq<Team>, edition: EditionId, d: DisciplineId)
    ensures Consistent(Board(InitBlindtestResults(teams, edition, d), map[]), d)
  {
    forall t: TeamId ensures ValidGuesses(map[], t) == {} {}
  }

  /** Storing guess `id` changes the accepted guesses of its team by the
      delta and those of every other team not at all, as long as a stored
      guess keeps its team. */
  lemma {:induction false} ValidGuessesAfterSave(guesses: map<GuessId, Guess>, id: GuessId, g: Guess, t: TeamId)
    requires id in guesses ==> guesses[id].team == g.team
    ensures |ValidGuesses(guesses[id := g], t)| == |ValidGuesses(guesses, t)|
      + (if t == g.team then GuessDelta(if id in guesses then Some(guesses[id].valid) else None, g.valid) else 0)
  {
    var before := ValidGuesses(guesses, t);
    var after := ValidGuesses(guesses[id := g], t);
    if t == g.team && g.valid {
      assert after == before + {id};
      if id in before {
        assert after == before;
      }
    } else {
      assert after == before - {id};
      if t == g.team && id in before {
        assert |after| == |before| - 1;
      }
    }
  }

  /** With a stored guess keeping its team and one result row per team,
      every save keeps each team's points equal to its number of accepted
      guesses. */
  lemma SaveGuessKeepsConsistent(b: Board, d: DisciplineId, id: GuessId, g: Guess)
    requires Consistent(b, d)
    requires id in b.guesses ==> b.guesses[id].team == g.team
    requires SaveGuess(b, d, id, g).Ok?
    ensures Consistent(SaveGuess(b, d, id, g).value, d)
  {
    var b' := SaveGuess(b, d, id, g).value;
    forall i | 0 <= i < |b'.results| && b'.results[i].discipline == d
      ensures b'.results[i].points == |ValidGuesses(b'.guesses, b'.results[i].team)|
    {
      ValidGuessesAfterSave(b.guesses, id, g, b.results[i].team);
    }
  }

  /** Switching a stored guess to accepted and back restores every result. */
  lemma ToggleRestoresPoints(b: Board, d: DisciplineId, id: GuessId, g: Guess)
    requires id in b.guesses && b.guesses[id] == g && !g.valid
    requires SaveGuess(b, d, id, g.(valid := true)).Ok?
    ensures SaveGuess(SaveGuess(b, d, id, g.(valid := true)).value, d, id, g).Ok?
    ensures SaveGuess(SaveGuess(b, d, id, g.(valid := true)).value, d, id, g).value == b
  {
    var b1 := SaveGuess(b, d, id, g.(valid := true)).value;
    assert LookupResult(b1.results, g.team, d).Ok? by {
      forall j | 0 <= j < |b.results| ensures IsRowOf(b1.results[j], g.team, d) == IsRowOf(b.results[j], g.team, d) {}
      assert LookupResult(b.results, g.team, d).Ok?;
      var k := LookupResult(b.results, g.team, d).value;
      assert IsRowOf(b1.results[k], g.team, d);
    }
    var b2 := SaveGuess(b1, d, id, g).value;
    assert b2.guesses == b.guesses;
    assert b2.results == b.results;
  }
}

=== FILE: clean_string.dfy ===
/**
 * `cleanString` of the front end: drop every white-space character and
 * apostrophe, lower-case the rest, then upper-case the first character.
 * Case mapping is modelled for ASCII letters only.
 */
module CleanString {

  /** A character matched by the JavaScript class `\s`: the WhiteSpace and
      LineTerminator code points of ECMA-262 (tab, vertical tab,
      form feed, the space separators, the byte order mark, line feed,
      carriage return, line and paragraph separators). */
  predicate IsJsSpace(c: char) {
    || c == '\t' || c == '\n' || c == '\U{B}' || c == '\U{C}' || c == '\r' || c == ' '
    || c == '\U{A0}' || c == '\U{1680}' || ('\U{2000}' <= c <= '\U{200A}')
    || c == '\U{2028}' || c == '\U{2029}' || c == '\U{202F}' || c == '\U{205F}'
    || c == '\U{3000}' || c == '\U{FEFF}'
  }

  /** Matched by `/[\s']/`. */
  predicate Removed(c: char) {
    IsJsSpace(c) || c == '\''
  }

  predicate IsAsciiUpper(c: char) {
    'A' <= c <= 'Z'
  }

  predicate IsAsciiLower(c: char) {
    'a' <= c <= 'z'
  }

  function ToLower(c: char): (l: char)
    ensures !IsAsciiUpper(l)
    ensures IsAsciiUpper(c) ==> IsAsciiLower(l) && l as int - 'a' as int == c as int - 'A' as int
    ensures !IsAsciiUpper(c) ==> l == c
  {
    if IsAsciiUpper(c) then (c as int + 32) as char else c
  }

  function ToUpper(c: char): (u: char)
    ensures !IsAsciiLower(u)
    ensures IsAsciiLower(c) ==> IsAsciiUpper(u) && u as int - 'A' as int == c as int - 'a' as int
    ensures !IsAsciiLower(c) ==> u == c
  {
    if IsAsciiLower(c) then (c as int - 32) as char else c
  }

  /** Upper-casing keeps the letter: it lower-cases back to where it came
      from. */
  lemma CaseRoundTrip(c: char)
    ensures ToLower(ToUpper(c)) == ToLower(c)
    ensures ToUpper(ToLower(c)) == ToUpper(c)
  {
  }

  /** How many characters of `s` the pattern removes. */
  function RemovedCount(s: string): (n: nat)
    ensures n <= |s|
    ensures n == 0 <==> forall i :: 0 <= i < |s| ==> !Removed(s[i])
    ensures n == |s| <==> forall i :: 0 <= i < |s| ==> Removed(s[i])
  {
    if |s| == 0 then 0
    else
      assert forall i :: 1 <= i < |s| ==> s[i] == s[1..][i - 1];
      (if Removed(s[0]) then 1 else 0) + RemovedCount(s[1..])
  }

  /** `str.replace(/[\s']/g, '')`. */
  function Strip(s: string): (r: string)
    ensures |r| == |s| - RemovedCount(s)
    ensures forall i :: 0 <= i < |r| ==> !Removed(r[i])
  {
    if |s| == 0 then ""
    else if Removed(s[0]) then Strip(s[1..])
    else [s[0]] + Strip(s[1..])
  }

  /** Stripping works character by character: it distributes over
      concatenation. */
  lemma {:induction false} StripAppend(a: string, b: string)
    ensures Strip(a + b) == Strip(a) + Strip(b)
  {
    if |a| > 0 {
      assert (a + b)[0] == a[0];
      assert (a + b)[1..] == a[1..] + b;
      StripAppend(a[1..], b);
    } else {
      assert a + b == b;
    }
  }

  /** A string with nothing to remove is left as it is. */
  lemma {:induction false} StripKeepsClean(s: string)
    requires forall i :: 0 <= i < |s| ==> !Removed(s[i])
    ensures Strip(s) == s
  {
    if |s| > 0 {
      assert forall i :: 0 <= i < |s[1..]| ==> s[1..][i] == s[i + 1];
      StripKeepsClean(s[1..]);
    }
  }

  /** `.toLowerCase()`, ASCII letters only. */
  function LowerAll(s: string): (r: string)
    ensures |r| == |s|
    ensures forall i :: 0 <= i < |s| ==> r[i] == ToLower(s[i])
  {
    seq(|s|, i requires 0 <= i < |s| => ToLower(s[i]))
  }

  /** `cleanString`. */
  function Clean(s: string): (r: string)
    ensures |r| == |s| - RemovedCount(s)
    ensures |r| == 0 <==> forall i :: 0 <= i < |s| ==> Removed(s[i])
    ensures forall i :: 0 <= i < |r| ==> !Removed(r[i])
    ensures forall i :: 0 <= i < |r| ==> ToLower(r[i]) == ToLower(Strip(s)[i])
    ensures forall i :: 1 <= i < |r| ==> !IsAsciiUpper(r[i])
    ensures |r| > 0 ==> !IsAsciiLower(r[0])
  {
    var cleaned := LowerAll(Strip(s));
    if |cleaned| == 0 then ""
    else
      assert ToLower(ToUpper(cleaned[0])) == ToLower(Strip(s)[0]) by {
        CaseRoundTrip(Strip(s)[0]);
      }
      assert !Removed(ToUpper(cleaned[0]));
      [ToUpper(cleaned[0])] + cleaned[1..]
  }

  /** Cleaning a cleaned string changes nothing. */
  lemma CleanIdempotent(s: string)
    ensures Clean(Clean(s)) == Clean(s)
  {
    var r := Clean(s);
    StripKeepsClean(r);
    if |r| > 0 {
      var again := Clean(r);
      assert |again| == |r|;
      forall i | 0 <= i < |r| ensures again[i] == r[i] {
        if i == 0 {
          CaseRoundTrip(r[0]);
          assert again[0] == ToUpper(ToLower(r[0]));
        }
      }
    }
  }
}

=== FILE: dodgeball.dfy ===
/**
 * Dodgeball scoring: a hit or a foul ends the round when, reading the earlier
 * events newest first, three players of the losing side have gone out since
 * the last new round; the side that put them out scores one point.
 */
module Dodgeball {
  import opened Entities

  datatype DodgeballKind = Hit | Foul | Outbounds | NewRound

  /** A logged event: `team1` is the team of its first player (the thrower
      or the fouler), `team2` that of its optional second player (the player
      hit). */
  datatype DodgeballEvent = DodgeballEvent(kind: DodgeballKind, team1: TeamId, team2: Option<TeamId>)

  /** Reading `.team` of a missing second player raises `AttributeError`;
      so does naming the enum member `NEW`, which does not exist. */
  datatype DodgeballError = MissingPlayer2 | NoSuchEventType

  /** Players on a side at the start of a round. */
  const LivePlayers := 3

  /** The event puts a player of side `pivot` out: a hit whose victim plays
      for `pivot`, or a foul committed by `pivot`. */
  predicate PutsOut(e: DodgeballEvent, pivot: TeamId) {
    || (e.kind == Hit && e.team2 == Some(pivot))
    || (e.kind == Foul && e.team1 == pivot)
  }

  /** The countdown loop shared by `is_hit_end_of_round` and
      `is_foul_end_of_round`, from `live` players on; `pivot` is the side
      counted down, missing when the saved hit has no second player. The
      events after a new round are never read. */
  function EndOfRoundScan(log: seq<DodgeballEvent>, pivot: Option<TeamId>, live: nat): (r: Result<bool, DodgeballError>)
    requires live > 0
    ensures r.Err? ==> r.error == MissingPlayer2
    ensures pivot.Some? && (forall i :: 0 <= i < |log| && log[i].kind == Hit ==> log[i].team2.Some?) ==> r.Ok?
  {
    if |log| == 0 then Ok(false)
    else
      var e := log[0];
      match e.kind
      case NewRound => Ok(false)
      case Outbounds => EndOfRoundScan(log[1..], pivot, live)
      case Hit =>
        if pivot.None? || e.team2.None? then Err(MissingPlayer2)
        else
          var live' := if e.team2.value == pivot.value then live - 1 else live;
          if live' == 0 then Ok(true) else EndOfRoundScan(log[1..], pivot, live')
      case Foul =>
        if pivot.None? then Err(MissingPlayer2)
        else
          var live' := if e.team1 == pivot.value then live - 1 else live;
          if live' == 0 then Ok(true) else EndOfRoundScan(log[1..], pivot, live')
  }

  /** The events read before the newest new round. */
  function SinceNewRound(log: seq<DodgeballEvent>): (s: seq<DodgeballEvent>)
    ensures |s| <= |log| && s == log[..|s|]
    ensures forall i :: 0 <= i < |s| ==> s[i].kind != NewRound
    ensures |s| < |log| ==> log[|s|].kind == NewRound
  {
    if |log| == 0 || log[0].kind == NewRound then []
    else [log[0]] + SinceNewRound(log[1..])
  }

  /** How many events of `s` put a player of `pivot` out. */
  function OutCount(s: seq<DodgeballEvent>, pivot: TeamId): (n: nat)
    ensures n <= |s|
  {
    if |s| == 0 then 0 else (if PutsOut(s[0], pivot) then 1 else 0) + OutCount(s[1..], pivot)
  }

  /** Every hit in the log names the player hit. */
  predicate HitsNamePlayer2(log: seq<DodgeballEvent>) {
    forall i :: 0 <= i < |log| && log[i].kind == Hit ==> log[i].team2.Some?
  }

  /** The countdown ends the round exactly when at least `live` players of
      the pivot side went out since the last new round. */
  lemma {:induction false} ScanCountsOuts(log: seq<DodgeballEvent>, pivot: TeamId, live: nat)
    requires live > 0
    requires HitsNamePlayer2(log)
    ensures EndOfRoundScan(log, Some(pivot), live) == Ok(OutCount(SinceNewRound(log), pivot) >= live)
  {
    if |log| > 0 && log[0].kind != NewRound {
      var e := log[0];
      var rest := log[1..];
      assert HitsNamePlayer2(rest) by {
        forall i | 0 <= i < |rest| && rest[i].kind == Hit ensures rest[i].team2.Some? {
          assert rest[i] == log[i + 1];
        }
      }
      assert SinceNewRound(log)[1..] == SinceNewRound(rest);
      var live' := if PutsOut(e, pivot) then live - 1 else live;
      if live' > 0 {
        ScanCountsOuts(rest, pivot, live');
      }
    }
  }

  /** The same, for a pivot that may be missing. */
  lemma CountsOutsWhenWellFormed(log: seq<DodgeballEvent>, pivot: Option<TeamId>)
    ensures pivot.Some? && HitsNamePlayer2(log) ==>
      EndOfRoundScan(log, pivot, LivePlayers) == Ok(OutCount(SinceNewRound(log), pivot.value) >= LivePlayers)
  {
    if pivot.Some? && HitsNamePlayer2(log) {
      ScanCountsOuts(log, pivot.value, LivePlayers);
    }
  }

  /** Live players as the scan reads the log: the count after each event it
      reads before it stops. */
  function LiveTrace(log: seq<DodgeballEvent>, pivot: TeamId, live: nat): (trace: seq<nat>)
    ensures |trace| <= |log|
    ensures forall i :: 0 <= i < |trace| ==> trace[i] <= live
    ensures forall i, j :: 0 <= i < j < |trace| ==> trace[j] <= trace[i]
    ensures forall i :: 0 <= i < |trace| - 1 ==> trace[i] > 0
  {
    if |log| == 0 || live == 0 || log[0].kind == NewRound then []
    else
      var live' := if PutsOut(log[0], pivot) then live - 1 else live;
      [live'] + LiveTrace(log[1..], pivot, live')
  }

  /** The trace and the countdown agree: the scan ends the round exactly
      when the live count it reads down to reaches 0. */
  lemma {:induction false} ScanFollowsTrace(log: seq<DodgeballEvent>, pivot: TeamId, live: nat)
    requires live > 0
    requires HitsNamePlayer2(log)
    ensures var trace := LiveTrace(log, pivot, live);
      EndOfRoundScan(log, Some(pivot), live) == Ok(|trace| > 0 && trace[|trace| - 1] == 0)
  {
    if |log| > 0 && log[0].kind != NewRound {
      var rest := log[1..];
      var live' := if PutsOut(log[0], pivot) then live - 1 else live;
      var trace := LiveTrace(log, pivot, live);
      assert trace == [live'] + LiveTrace(rest, pivot, live');
      if live' > 0 {
        assert HitsNamePlayer2(rest) by {
          forall i | 0 <= i < |rest| && rest[i].kind == Hit ensures rest[i].team2.Some? {
            assert rest[i] == log[i + 1];
          }
        }
        ScanFollowsTrace(rest, pivot, live');
      } else {
        assert LiveTrace(rest, pivot, live') == [];
      }
    }
  }

  /** Each live count the scan reads down to is the starting count less the
      players put out by the events read so far. */
  lemma {:induction false} LiveTraceCountsOuts(log: seq<DodgeballEvent>, pivot: TeamId, live: nat)
    ensures var trace := LiveTrace(log, pivot, live);
      forall i :: 0 <= i < |trace| ==> trace[i] == live - OutCount(log[..i + 1], pivot)
  {
    var trace := LiveTrace(log, pivot, live);
    if |log| > 0 && live > 0 && log[0].kind != NewRound {
      var rest := log[1..];
      var live' := if PutsOut(log[0], pivot) then live - 1 else live;
      assert trace == [live'] + LiveTrace(rest, pivot, live');
      LiveTraceCountsOuts(rest, pivot, live');
      forall i | 0 <= i < |trace| ensures trace[i] == live - OutCount(log[..i + 1], pivot) {
        var prefix := log[..i + 1];
        assert prefix[0] == log[0] && prefix[1..] == rest[..i];
        if i > 0 {
          assert trace[i] == LiveTrace(rest, pivot, live')[i - 1];
        } else {
          assert rest[..0] == [];
        }
      }
    }
  }

  /** `is_hit_end_of_round`: the round ends with this hit when the side of
      the player hit (`ev.team2`) is out of players. */
  function IsHitEndOfRound(ev: DodgeballEvent, log: seq<DodgeballEvent>): (r: Result<bool, DodgeballError>)
    ensures ev.team2.Some? && HitsNamePlayer2(log) ==>
      r == Ok(OutCount(SinceNewRound(log), ev.team2.value) >= LivePlayers)
  {
    CountsOutsWhenWellFormed(log, ev.team2);
    EndOfRoundScan(log, ev.team2, LivePlayers)
  }

  /** `is_foul_end_of_round`: the same countdown for the fouler's side. */
  function IsFoulEndOfRound(ev: DodgeballEvent, log: seq<DodgeballEvent>): (r: Result<bool, DodgeballError>)
    ensures HitsNamePlayer2(log) ==> r == Ok(OutCount(SinceNewRound(log), ev.team1) >= LivePlayers)
  {
    CountsOutsWhenWellFormed(log, Some(ev.team1));
    EndOfRoundScan(log, Some(ev.team1), LivePlayers)
  }

  /** A new round read before three players are out means the round is not
      over. */
  lemma NewRoundFirstMeansNotOver(ev: DodgeballEvent, log: seq<DodgeballEvent>)
    requires |log| > 0 && log[0].kind == NewRound
    ensures IsHitEndOfRound(ev, log) == Ok(false)
    ensures IsFoulEndOfRound(ev, log) == Ok(false)
  {
  }

  /** `DodgeballEvent.save`: a hit that ends the round scores one for the
      thrower's side, a foul that ends it one for the side opposite the
      fouler; any other event, or an event that does not end the round,
      leaves the game as it is. */
  function SaveDodgeballEvent(game: Game, ev: DodgeballEvent, log: seq<DodgeballEvent>): (r: Result<Game, DodgeballError>)
    ensures r.Ok? ==> r.value == game.(score1 := r.value.score1, score2 := r.value.score2)
    ensures ev.kind == Outbounds || ev.kind == NewRound ==> r == Ok(game)
    ensures ev.kind == Hit && IsHitEndOfRound(ev, log) == Ok(true) ==>
      r == Ok(if game.team1 == ev.team1 then game.(score1 := game.score1 + 1) else game.(score2 := game.score2 + 1))
    ensures ev.kind == Foul && IsFoulEndOfRound(ev, log) == Ok(true) ==>
      r == Ok(if game.team1 == ev.team1 then game.(score2 := game.score2 + 1) else game.(score1 := game.score1 + 1))
    ensures ev.kind == Hit && IsHitEndOfRound(ev, log) == Ok(false) ==> r == Ok(game)
    ensures ev.kind == Foul && IsFoulEndOfRound(ev, log) == Ok(false) ==> r == Ok(game)
  {
    match ev.kind
    case Hit =>
      (match IsHitEndOfRound(ev, log)
       case Err(e) => Err(e)
       case Ok(ends) =>
         if !ends then Ok(game)
         else if game.team1 == ev.team1 then Ok(game.(score1 := game.score1 + 1))
         else Ok(game.(score2 := game.score2 + 1)))
    case Foul =>
      (match IsFoulEndOfRound(ev, log)
       case Err(e) => Err(e)
       case Ok(ends) =>
         if !ends then Ok(game)
         else if game.team1 == ev.team1 then Ok(game.(score2 := game.score2 + 1))
         else Ok(game.(score1 := game.score1 + 1)))
    case Outbounds => Ok(game)
    case NewRound => Ok(game)
  }

  /** A save moves at most one score, and that one up by exactly one. */
  lemma SaveScoresAtMostOne(game: Game, ev: DodgeballEvent, log: seq<DodgeballEvent>)
    requires SaveDodgeballEvent(game, ev, log).Ok?
    ensures var g := SaveDodgeballEvent(game, ev, log).value;
      || g == game
      || (g.score1 == game.score1 + 1 && g.score2 == game.score2)
      || (g.score2 == game.score2 + 1 && g.score1 == game.score1)
  {
  }

  /** The scan as the source spells it: its third case names
      `DodgeballEventTypes.NEW`, which does not exist, so reaching that case
      (an out-of-bounds or new-round event) raises instead of skipping the
      event or ending the scan. */
  function EndOfRoundScanAsWritten(log: seq<DodgeballEvent>, pivot: Option<TeamId>, live: nat): (r: Result<bool, DodgeballError>)
    requires live > 0
    ensures (exists i :: 0 <= i < |log| && (log[i].kind == Outbounds || log[i].kind == NewRound)) ==> r != Ok(false)
    ensures (forall i :: 0 <= i < |log| ==> log[i].kind != Outbounds && log[i].kind != NewRound) ==>
      r == EndOfRoundScan(log, pivot, live)
  {
    if |log| == 0 then Ok(false)
    else
      var e := log[0];
      match e.kind
      case NewRound => Err(NoSuchEventType)
      case Outbounds => Err(NoSuchEventType)
      case Hit =>
        if pivot.None? || e.team2.None? then Err(MissingPlayer2)
        else
          var live' := if e.team2.value == pivot.value then live - 1 else live;
          if live' == 0 then Ok(true) else EndOfRoundScanAsWritten(log[1..], pivot, live')
      case Foul =>
        if pivot.None? then Err(MissingPlayer2)
        else
          var live' := if e.team1 == pivot.value then live - 1 else live;
          if live' == 0 then Ok(true) else EndOfRoundScanAsWritten(log[1..], pivot, live')
  }

  /** A hit logged right after a new round: the intended scan stops and says
      the round goes on; the scan as written raises. */
  lemma NewRoundTypoCounterexample()
    ensures EndOfRoundScan([DodgeballEvent(NewRound, 1, None)], Some(2), LivePlayers) == Ok(false)
    ensures EndOfRoundScanAsWritten([DodgeballEvent(NewRound, 1, None)], Some(2), LivePlayers) == Err(NoSuchEventType)
  {
  }
}

=== FILE: entities.dfy ===
/**
 * The records of the tournament store, as plain immutable values.
 *
 * Every Django model the scheduling and scoring rules touch becomes a
 * datatype here; a query over a table becomes a sequence of rows.
 */
module Entities {

  /** Database primary keys start at 1, so Python's `not team_id` test on a
      real id is the same as "no id yet". */
  type TeamId = x: int | x >= 1 witness 1

  type DisciplineId = int
  type EditionId = int

  datatype Option<+T> = None | Some(value: T)

  /** A computation that either yields a value or raises the error `E`. */
  datatype Result<+T, +E> = Ok(value: T) | Err(error: E)

  datatype Team = Team(id: TeamId, edition: EditionId, active: bool)

  /** A `TeamSportRound`: its discipline and its order (0, 1, ...). */
  datatype Round = Round(discipline: DisciplineId, order: nat, active: bool)

  /** A `Game`; `round` is the order of the round the game belongs to. */
  datatype Game = Game(
    discipline: DisciplineId,
    round: nat,
    team1: TeamId,
    team2: TeamId,
    referee: TeamId,
    score1: int,
    score2: int,
    active: bool)

  /** `TeamResult.result_type`: points, time, or anything else (ranked 0). */
  datatype ResultKind = Points | Time | Unranked

  /** A `TeamResult`; `edition` is the edition of its discipline and `time`
      is the time of day as a number of seconds. */
  datatype TeamResult = TeamResult(
    team: TeamId,
    discipline: DisciplineId,
    edition: EditionId,
    kind: ResultKind,
    points: int,
    time: int,
    active: bool)

  /** No value occurs twice in `s`. */
  ghost predicate Distinct<T>(s: seq<T>) {
    forall i, j :: 0 <= i < j < |s| ==> s[i] != s[j]
  }

  /** In a sequence without repetitions, every value occurs at most once. */
  lemma {:induction false} DistinctOccursOnce<T>(s: seq<T>, x: T)
    requires Distinct(s)
    ensures multiset(s)[x] <= 1
  {
    if |s| > 0 {
      assert s == [s[0]] + s[1..];
      assert Distinct(s[1..]) by {
        forall i, j | 0 <= i < j < |s[1..]| ensures s[1..][i] != s[1..][j] {
          assert s[1..][i] == s[i + 1] && s[1..][j] == s[j + 1];
        }
      }
      DistinctOccursOnce(s[1..], x);
      if s[0] == x {
        assert x !in s[1..] by {
          forall k | 0 <= k < |s[1..]| ensures s[1..][k] != x {
            assert s[1..][k] == s[k + 1];
          }
        }
      }
    }
  }

  /** Having no repetitions depends only on the multiset of values. */
  lemma DistinctPermutation<T>(a: seq<T>, b: seq<T>)
    requires Distinct(a)
    requires multiset(a) == multiset(b)
    ensures Distinct(b)
  {
    forall i, j | 0 <= i < j < |b| ensures b[i] != b[j] {
      if b[i] == b[j] {
        var x := b[i];
        assert b == b[..j] + [b[j]] + b[j + 1..];
        assert x in b[..j];
        assert multiset(b)[x] == multiset(b[..j])[x] + 1 + multiset(b[j + 1..])[x];
        DistinctOccursOnce(a, x);
        assert false;
      }
    }
  }

  /** Why `TeamResult.objects.get(team=..., discipline=...)` can raise. */
  datatype LookupError = DoesNotExist | MultipleObjectsReturned

  predicate IsRowOf(r: TeamResult, team: TeamId, d: DisciplineId) {
    r.team == team && r.discipline == d
  }

  /** The indices, from `from` on, of the rows for (`team`, `d`), in order. */
  function MatchingRows(results: seq<TeamResult>, team: TeamId, d: DisciplineId, from: nat): (ix: seq<nat>)
    requires from <= |results|
    ensures forall k :: 0 <= k < |ix| ==> from <= ix[k] < |results| && IsRowOf(results[ix[k]], team, d)
    ensures forall j :: from <= j < |results| && IsRowOf(results[j], team, d) ==> j in ix
    ensures forall a, b :: 0 <= a < b < |ix| ==> ix[a] < ix[b]
    decreases |results| - from
  {
    if from == |results| then []
    else if IsRowOf(results[from], team, d) then [from] + MatchingRows(results, team, d, from + 1)
    else MatchingRows(results, team, d, from + 1)
  }

  /** `TeamResult.objects.get(team=team, discipline=d)`: the index of the one
      matching row, or the error Django raises for none or several. */
  function LookupResult(results: seq<TeamResult>, team: TeamId, d: DisciplineId): (r: Result<nat, LookupError>)
    ensures r.Ok? ==> r.value < |results| && IsRowOf(results[r.value], team, d)
    ensures r.Ok? ==> forall j :: 0 <= j < |results| && IsRowOf(results[j], team, d) ==> j == r.value
    ensures r == Err(DoesNotExist) <==> forall j :: 0 <= j < |results| ==> !IsRowOf(results[j], team, d)
    ensures r == Err(MultipleObjectsReturned) <==>
      exists i, j :: 0 <= i < j < |results| && IsRowOf(results[i], team, d) && IsRowOf(results[j], team, d)
  {
    var ix := MatchingRows(results, team, d, 0);
    if |ix| == 0 then Err(DoesNotExist)
    else if |ix| == 1 then Ok(ix[0])
    else
      assert IsRowOf(results[ix[0]], team, d) && IsRowOf(results[ix[1]], team, d);
      Err(MultipleObjectsReturned)
  }

  /** The store after `result.points += delta; result.save()` on the row of
      (`team`, `d`). */
  function AdjustPoints(results: seq<TeamResult>, team: TeamId, d: DisciplineId, delta: int): (r: Result<seq<TeamResult>, LookupError>)
    ensures r.Err? <==> LookupResult(results, team, d).Err?
    ensures r.Ok? ==> |r.value| == |results|
    ensures r.Ok? ==> forall i :: 0 <= i < |results| ==>
      if IsRowOf(results[i], team, d)
      then r.value[i] == results[i].(points := results[i].points + delta)
      else r.value[i] == results[i]
  {
    match LookupResult(results, team, d)
    case Err(e) => Err(e)
    case Ok(i) => Ok(results[i := results[i].(points := results[i].points + delta)])
  }
}

=== FILE: game_ledger.dfy ===
/**
 * The win/draw/loss ledger kept by `Game.save`: a game contributes 3/0, 1/1
 * or 0/3 points to the results of its two teams, and each save applies the
 * difference between the old and the new contribution.
 */
module GameLedger {
  import opened Entities

  datatype Outcome = Team1Wins | Draw | Team2Wins

  function OutcomeOf(score1: int, score2: int): Outcome {
    if score1 > score2 then Team1Wins else if score1 < score2 then Team2Wins else Draw
  }

  /** Points added to the results of team1 and team2. */
  datatype Delta = Delta(team1: int, team2: int)

  function Plus(a: Delta, b: Delta): Delta {
    Delta(a.team1 + b.team1, a.team2 + b.team2)
  }

  const NoChange := Delta(0, 0)

  /** What a game with this outcome is worth to each team. */
  function Share(o: Outcome): Delta {
    match o
    case Team1Wins => Delta(3, 0)
    case Draw => Delta(1, 1)
    case Team2Wins => Delta(0, 3)
  }

  datatype Score = Score(score1: int, score2: int)

  /** The points `Game.save` adds, given the stored scores (`None` for a new
      game) and the scores being saved. */
  function SaveDelta(stored: Option<Score>, saved: Score): (delta: Delta)
    ensures stored.None? ==> delta == Share(OutcomeOf(saved.score1, saved.score2))
    ensures stored.Some? ==>
      Plus(Share(OutcomeOf(stored.value.score1, stored.value.score2)), delta) == Share(OutcomeOf(saved.score1, saved.score2))
    ensures stored.Some? && OutcomeOf(stored.value.score1, stored.value.score2) == OutcomeOf(saved.score1, saved.score2) ==>
      delta == NoChange
  {
    match stored
    case None =>
      if saved.score1 > saved.score2 then Delta(3, 0)
      else if saved.score1 < saved.score2 then Delta(0, 3)
      else Delta(1, 1)
    case Some(prior) =>
      if saved == prior then NoChange
      else if saved.score1 > saved.score2 then
        if prior.score1 == prior.score2 then Delta(2, -1)
        else if prior.score1 < prior.score2 then Delta(3, -3)
        else NoChange
      else if saved.score1 < saved.score2 then
        if prior.score1 == prior.score2 then Delta(-1, 2)
        else if prior.score1 > prior.score2 then Delta(-3, 3)
        else NoChange
      else
        if prior.score1 > prior.score2 then Delta(-2, 1)
        else if prior.score1 < prior.score2 then Delta(1, -2)
        else NoChange
  }

  /** The total added by saving the scores `saves` one after the other, the
      first save creating the game. */
  function Replay(saves: seq<Score>): Delta
    decreases |saves|
  {
    if |saves| == 0 then NoChange
    else if |saves| == 1 then SaveDelta(None, saves[0])
    else Plus(Replay(saves[..|saves| - 1]), SaveDelta(Some(saves[|saves| - 2]), saves[|saves| - 1]))
  }

  /** After any sequence of saves the game has contributed exactly the share
      of its current outcome. */
  lemma {:induction false} ReplayMatchesOutcome(saves: seq<Score>)
    requires |saves| > 0
    ensures Replay(saves) == Share(OutcomeOf(saves[|saves| - 1].score1, saves[|saves| - 1].score2))
  {
    if |saves| > 1 {
      var prefix := saves[..|saves| - 1];
      ReplayMatchesOutcome(prefix);
      assert prefix[|prefix| - 1] == saves[|saves| - 2];
    }
  }

  /** `Game.save` with its `_update_points`: both results are read, then
      team1's and team2's are written back with their delta (team2's write
      last, so it wins when both teams are the same). The store is left alone
      when the delta is zero; otherwise a missing or duplicated result
      raises, team1's lookup first. */
  function SaveGame(results: seq<TeamResult>, game: Game, stored: Option<Score>): (r: Result<seq<TeamResult>, LookupError>)
    ensures SaveDelta(stored, Score(game.score1, game.score2)) == NoChange ==> r == Ok(results)
    ensures r.Ok? ==> |r.value| == |results|
    ensures r.Ok? && game.team1 != game.team2 ==> forall i :: 0 <= i < |results| ==>
      var delta := SaveDelta(stored, Score(game.score1, game.score2));
      r.value[i].points == results[i].points
        + (if IsRowOf(results[i], game.team1, game.discipline) then delta.team1 else 0)
        + (if IsRowOf(results[i], game.team2, game.discipline) then delta.team2 else 0)
    ensures r.Ok? && game.team1 == game.team2 ==> forall i :: 0 <= i < |results| ==>
      r.value[i].points == results[i].points
        + (if IsRowOf(results[i], game.team2, game.discipline) then SaveDelta(stored, Score(game.score1, game.score2)).team2 else 0)
    ensures r.Ok? ==> forall i :: 0 <= i < |results| ==> r.value[i] == results[i].(points := r.value[i].points)
    ensures r.Err? <==>
      && SaveDelta(stored, Score(game.score1, game.score2)) != NoChange
      && (LookupResult(results, game.team1, game.discipline).Err? || LookupResult(results, game.team2, game.discipline).Err?)
    ensures r.Err? && LookupResult(results, game.team1, game.discipline).Err? ==>
      r.error == LookupResult(results, game.team1, game.discipline).error
    ensures r.Err? && LookupResult(results, game.team1, game.discipline).Ok? ==>
      r.error == LookupResult(results, game.team2, game.discipline).error
  {
    var delta := SaveDelta(stored, Score(game.score1, game.score2));
    if delta == NoChange then Ok(results)
    else
      match (LookupResult(results, game.team1, game.discipline), LookupResult(results, game.team2, game.discipline))
      case (Ok(i1), Ok(i2)) =>
        var r1 := results[i1].(points := results[i1].points + delta.team1);
        var r2 := results[i2].(points := results[i2].points + delta.team2);
        Ok(results[i1 := r1][i2 := r2])
      case (Err(e), _) => Err(e)
      case (_, Err(e)) => Err(e)
  }

  /** A save whose scores did not change touches no result. */
  lemma UnchangedScoresTouchNothing(results: seq<TeamResult>, game: Game)
    ensures SaveGame(results, game, Some(Score(game.score1, game.score2))) == Ok(results)
  {}
}

=== FILE: ranking.dfy ===
/**
 * Rankings: the place of a result within its discipline, the points it
 * earns towards the edition, a team's total over the edition, and the
 * team's place among the active teams of its edition.
 */
module Ranking {
  import opened Entities

  /** `filter(discipline=d, points__gt=p).count()`: every result of the
      discipline, active or not, whatever its type. */
  function MorePoints(results: seq<TeamResult>, d: DisciplineId, p: int): (n: nat)
    ensures n <= |results|
    ensures n == 0 <==> forall i :: 0 <= i < |results| ==> !(results[i].discipline == d && results[i].points > p)
  {
    if |results| == 0 then 0
    else
      assert forall i :: 1 <= i < |results| ==> results[i] == results[1..][i - 1];
      (if results[0].discipline == d && results[0].points > p then 1 else 0) + MorePoints(results[1..], d, p)
  }

  /** `filter(discipline=d, time__lt=t).count()`. */
  function LessTime(results: seq<TeamResult>, d: DisciplineId, t: int): (n: nat)
    ensures n <= |results|
    ensures n == 0 <==> forall i :: 0 <= i < |results| ==> !(results[i].discipline == d && results[i].time < t)
  {
    if |results| == 0 then 0
    else
      assert forall i :: 1 <= i < |results| ==> results[i] == results[1..][i - 1];
      (if results[0].discipline == d && results[0].time < t then 1 else 0) + LessTime(results[1..], d, t)
  }

  /** The results of discipline `d`, active or not. */
  function InDiscipline(results: seq<TeamResult>, d: DisciplineId): (n: nat)
    ensures n <= |results|
  {
    if |results| == 0 then 0
    else (if results[0].discipline == d then 1 else 0) + InDiscipline(results[1..], d)
  }

  /** `filter(discipline=d, is_active=True).count()`. */
  function ActiveInDiscipline(results: seq<TeamResult>, d: DisciplineId): (n: nat)
    ensures n <= InDiscipline(results, d)
  {
    if |results| == 0 then 0
    else (if results[0].discipline == d && results[0].active then 1 else 0) + ActiveInDiscipline(results[1..], d)
  }

  /** `TeamResult.ranking`: one more than the number of strictly better
      results of the discipline (more points, or less time); 0 for any other
      result type. */
  function Rank(results: seq<TeamResult>, r: TeamResult): (rank: nat)
    ensures r.kind == Unranked <==> rank == 0
    ensures r.kind == Points ==> (rank == 1 <==> forall i :: 0 <= i < |results| && results[i].discipline == r.discipline ==> results[i].points <= r.points)
    ensures r.kind == Time ==> (rank == 1 <==> forall i :: 0 <= i < |results| && results[i].discipline == r.discipline ==> results[i].time >= r.time)
  {
    match r.kind
    case Time => LessTime(results, r.discipline, r.time) + 1
    case Points => MorePoints(results, r.discipline, r.points) + 1
    case Unranked => 0
  }

  /** Each count adds up over a concatenation: rows are counted independently
      of where they stand. */
  lemma {:induction false} CountsAppend(a: seq<TeamResult>, b: seq<TeamResult>, d: DisciplineId, p: int, t: int)
    ensures MorePoints(a + b, d, p) == MorePoints(a, d, p) + MorePoints(b, d, p)
    ensures LessTime(a + b, d, t) == LessTime(a, d, t) + LessTime(b, d, t)
    ensures ActiveInDiscipline(a + b, d) == ActiveInDiscipline(a, d) + ActiveInDiscipline(b, d)
  {
    if |a| > 0 {
      assert (a + b)[0] == a[0];
      assert (a + b)[1..] == a[1..] + b;
      CountsAppend(a[1..], b, d, p, t);
    } else {
      assert a + b == b;
    }
  }

  /** A single row counts once exactly when it matches the query's filter;
      with `CountsAppend` this fixes each count on every sequence of rows. */
  lemma CountsOfOneRow(x: TeamResult, d: DisciplineId, p: int, t: int)
    ensures MorePoints([x], d, p) == if x.discipline == d && x.points > p then 1 else 0
    ensures LessTime([x], d, t) == if x.discipline == d && x.time < t then 1 else 0
    ensures ActiveInDiscipline([x], d) == if x.discipline == d && x.active then 1 else 0
  {
    assert [x][1..] == [];
  }

  /** `x` is strictly better than `r` in `r`'s discipline: more points for a
      points result, less time for a time result. */
  predicate Beats(x: TeamResult, r: TeamResult) {
    && x.discipline == r.discipline
    && ((r.kind == Points && x.points > r.points) || (r.kind == Time && x.time < r.time))
  }

  /** The competition rank: on an empty store a ranked result is first, and
      each further result that beats it pushes it down by exactly one; so
      points 10, 10, 5 rank 1, 1, 3. */
  lemma RankSnoc(results: seq<TeamResult>, x: TeamResult, r: TeamResult)
    ensures Rank([], r) == if r.kind == Unranked then 0 else 1
    ensures Rank(results + [x], r) == Rank(results, r) + (if Beats(x, r) then 1 else 0)
  {
    CountsAppend(results, [x], r.discipline, r.points, r.time);
    CountsOfOneRow(x, r.discipline, r.points, r.time);
  }

  /** No result beats itself, so a counted result cannot be beaten by all the
      results of its discipline. */
  lemma {:induction false} MorePointsBelowDiscipline(results: seq<TeamResult>, r: TeamResult)
    requires r in results
    ensures MorePoints(results, r.discipline, r.points) < InDiscipline(results, r.discipline)
  {
    if results[0] != r {
      MorePointsBelowDiscipline(results[1..], r);
    } else {
      assert MorePoints(results[1..], r.discipline, r.points) <= InDiscipline(results[1..], r.discipline) by {
        CountsBelowDiscipline(results[1..], r.discipline, r.points, r.time);
      }
    }
  }

  lemma {:induction false} LessTimeBelowDiscipline(results: seq<TeamResult>, r: TeamResult)
    requires r in results
    ensures LessTime(results, r.discipline, r.time) < InDiscipline(results, r.discipline)
  {
    if results[0] != r {
      LessTimeBelowDiscipline(results[1..], r);
    } else {
      CountsBelowDiscipline(results[1..], r.discipline, r.points, r.time);
    }
  }

  lemma {:induction false} CountsBelowDiscipline(results: seq<TeamResult>, d: DisciplineId, p: int, t: int)
    ensures MorePoints(results, d, p) <= InDiscipline(results, d)
    ensures LessTime(results, d, t) <= InDiscipline(results, d)
  {
    if |results| > 0 {
      CountsBelowDiscipline(results[1..], d, p, t);
    }
  }

  /** A ranked result that is in the store ranks between 1 and the number of
      results of its discipline. */
  lemma RankBounds(results: seq<TeamResult>, r: TeamResult)
    requires r in results && r.kind != Unranked
    ensures 1 <= Rank(results, r) <= InDiscipline(results, r.discipline)
  {
    if r.kind == Points {
      MorePointsBelowDiscipline(results, r);
    } else {
      LessTimeBelowDiscipline(results, r);
    }
  }

  /** Fewer results beat a higher score. */
  lemma {:induction false} MorePointsAntitone(results: seq<TeamResult>, d: DisciplineId, p: int, q: int)
    requires p >= q
    ensures MorePoints(results, d, p) <= MorePoints(results, d, q)
  {
    if |results| > 0 {
      MorePointsAntitone(results[1..], d, p, q);
    }
  }

  lemma {:induction false} LessTimeMonotone(results: seq<TeamResult>, d: DisciplineId, s: int, t: int)
    requires s <= t
    ensures LessTime(results, d, s) <= LessTime(results, d, t)
  {
    if |results| > 0 {
      LessTimeMonotone(results[1..], d, s, t);
    }
  }

  /** Among results of one discipline and type, a better result never ranks
      below a worse one, and equal scores share a rank. */
  lemma RankRespectsScores(results: seq<TeamResult>, a: TeamResult, b: TeamResult)
    requires a.discipline == b.discipline && a.kind == b.kind
    ensures a.kind == Points && a.points >= b.points ==> Rank(results, a) <= Rank(results, b)
    ensures a.kind == Time && a.time <= b.time ==> Rank(results, a) <= Rank(results, b)
    ensures a.kind == Points && a.points == b.points ==> Rank(results, a) == Rank(results, b)
    ensures a.kind == Time && a.time == b.time ==> Rank(results, a) == Rank(results, b)
  {
    if a.kind == Points && a.points >= b.points {
      MorePointsAntitone(results, a.discipline, a.points, b.points);
    }
    if a.kind == Time && a.time <= b.time {
      LessTimeMonotone(results, a.discipline, a.time, b.time);
    }
  }

  /** The points a place earns: the active result count less the place, with
      3 more for the first place and 2 more for a place up to 3 (which also
      covers the place 0 of an unranked result). */
  function PlacePoints(registered: nat, rank: nat): (p: int)
    ensures rank == 1 ==> p == registered + 2
    ensures rank == 0 ==> p == registered + 2
    ensures 2 <= rank <= 3 ==> p == registered - rank + 2
    ensures rank >= 4 ==> p == registered - rank
  {
    var p := registered - rank;
    if rank == 1 then p + 3 else if rank <= 3 then p + 2 else p
  }

  /** A better place earns strictly more points. */
  lemma PlacePointsDecrease(registered: nat, a: nat, b: nat)
    requires 1 <= a < b
    ensures PlacePoints(registered, a) > PlacePoints(registered, b)
  {
  }

  /** `TeamResult.global_points`: the discipline's active result count less
      the rank, plus 3 for the first place and plus 2 for places 2 and 3 and
      the unranked place 0. */
  function GlobalPoints(results: seq<TeamResult>, r: TeamResult): (p: int)
    ensures p <= ActiveInDiscipline(results, r.discipline) + 2
    ensures r.kind == Unranked ==> p == ActiveInDiscipline(results, r.discipline) + 2
    ensures Rank(results, r) == 1 ==> p == ActiveInDiscipline(results, r.discipline) + 2
    ensures 2 <= Rank(results, r) <= 3 ==> p == ActiveInDiscipline(results, r.discipline) - Rank(results, r) + 2
    ensures Rank(results, r) >= 4 ==> p == ActiveInDiscipline(results, r.discipline) - Rank(results, r)
  {
    PlacePoints(ActiveInDiscipline(results, r.discipline), Rank(results, r))
  }

  /** The result belongs to team `t` and to a discipline of edition `e`. */
  predicate CountsFor(r: TeamResult, t: TeamId, e: EditionId) {
    r.team == t && r.edition == e
  }

  /** The sum of the global points of the rows of `rows` that count for
      team `t` in edition `e`, each ranked against the whole store. */
  function SumGlobal(rows: seq<TeamResult>, results: seq<TeamResult>, t: TeamId, e: EditionId): (total: int)
  {
    if |rows| == 0 then 0
    else (if CountsFor(rows[0], t, e) then GlobalPoints(results, rows[0]) else 0) + SumGlobal(rows[1..], results, t, e)
  }

  /** Row `i` is the only row of `rows` that counts for team `t` in edition
      `e`. */
  predicate OnlyRowFor(rows: seq<TeamResult>, i: int, t: TeamId, e: EditionId) {
    && 0 <= i < |rows|
    && CountsFor(rows[i], t, e)
    && forall j :: 0 <= j < |rows| && j != i ==> !CountsFor(rows[j], t, e)
  }

  /** `Team.total_points`: the global points of every result of the team in
      its edition, active or not. */
  function TotalPoints(results: seq<TeamResult>, team: Team): (total: int)
    ensures (forall i :: 0 <= i < |results| ==> !CountsFor(results[i], team.id, team.edition)) ==> total == 0
  {
    NoRowsSumToZero(results, results, team.id, team.edition);
    SumGlobal(results, results, team.id, team.edition)
  }

  /** A team with a single result in its edition totals that result's
      global points. */
  lemma TotalOfOnlyRow(results: seq<TeamResult>, team: Team, i: int)
    requires OnlyRowFor(results, i, team.id, team.edition)
    ensures TotalPoints(results, team) == GlobalPoints(results, results[i])
  {
    OneRowSum(results, results, team.id, team.edition, i);
  }

  lemma {:induction false} NoRowsSumToZero(rows: seq<TeamResult>, results: seq<TeamResult>, t: TeamId, e: EditionId)
    ensures (forall i :: 0 <= i < |rows| ==> !CountsFor(rows[i], t, e)) ==> SumGlobal(rows, results, t, e) == 0
  {
    if |rows| > 0 && forall i :: 0 <= i < |rows| ==> !CountsFor(rows[i], t, e) {
      assert forall i :: 0 <= i < |rows[1..]| ==> rows[1..][i] == rows[i + 1];
      NoRowsSumToZero(rows[1..], results, t, e);
    }
  }

  /** With a single counting row, the sum is that row's global points. */
  lemma {:induction false} OneRowSum(rows: seq<TeamResult>, results: seq<TeamResult>, t: TeamId, e: EditionId, i: int)
    requires OnlyRowFor(rows, i, t, e)
    ensures SumGlobal(rows, results, t, e) == GlobalPoints(results, rows[i])
  {
    assert forall j :: 0 <= j < |rows[1..]| ==> rows[1..][j] == rows[j + 1];
    if i == 0 {
      NoRowsSumToZero(rows[1..], results, t, e);
    } else {
      assert OnlyRowFor(rows[1..], i - 1, t, e);
      OneRowSum(rows[1..], results, t, e, i - 1);
    }
  }

  /** One row contributes its global points when it counts for the team and
      nothing otherwise; with `SumGlobalAppend` this fixes the sum of every
      sequence of rows. */
  lemma SumGlobalSingleton(r: TeamResult, results: seq<TeamResult>, t: TeamId, e: EditionId)
    ensures SumGlobal([r], results, t, e) == if CountsFor(r, t, e) then GlobalPoints(results, r) else 0
  {
    assert [r][1..] == [];
  }

  /** The sum over a concatenation is the sum of the sums: rows are counted
      independently of where they stand. */
  lemma {:induction false} SumGlobalAppend(a: seq<TeamResult>, b: seq<TeamResult>, results: seq<TeamResult>, t: TeamId, e: EditionId)
    ensures SumGlobal(a + b, results, t, e) == SumGlobal(a, results, t, e) + SumGlobal(b, results, t, e)
  {
    if |a| > 0 {
      assert (a + b)[0] == a[0];
      assert (a + b)[1..] == a[1..] + b;
      SumGlobalAppend(a[1..], b, results, t, e);
    } else {
      assert a + b == b;
    }
  }

  /** The teams of edition `e` still taking part. */
  predicate Competes(t: Team, e: EditionId) {
    t.active && t.edition == e
  }

  /** The competing teams of edition `e` with a strictly greater total than
      `total`. */
  function Ahead(teams: seq<Team>, results: seq<TeamResult>, e: EditionId, total: int): (n: nat)
    ensures n <= |teams|
    ensures n == 0 <==> forall i :: 0 <= i < |teams| && Competes(teams[i], e) ==> TotalPoints(results, teams[i]) <= total
  {
    if |teams| == 0 then 0
    else
      assert forall i :: 1 <= i < |teams| ==> teams[i] == teams[1..][i - 1];
      (if Competes(teams[0], e) && TotalPoints(results, teams[0]) > total then 1 else 0) + Ahead(teams[1..], results, e, total)
  }

  /** Teams ahead add up over a concatenation of team lists. */
  lemma {:induction false} AheadAppend(a: seq<Team>, b: seq<Team>, results: seq<TeamResult>, e: EditionId, total: int)
    ensures Ahead(a + b, results, e, total) == Ahead(a, results, e, total) + Ahead(b, results, e, total)
  {
    if |a| > 0 {
      assert (a + b)[0] == a[0];
      assert (a + b)[1..] == a[1..] + b;
      AheadAppend(a[1..], b, results, e, total);
    } else {
      assert a + b == b;
    }
  }

  /** A single team is ahead exactly when it competes in the edition with a
      greater total; with `AheadAppend` this fixes the count on every list. */
  lemma AheadOfOneTeam(x: Team, results: seq<TeamResult>, e: EditionId, total: int)
    ensures Ahead([x], results, e, total) == if Competes(x, e) && TotalPoints(results, x) > total then 1 else 0
  {
    assert [x][1..] == [];
  }

  /** `Team.ranking`: one more than the number of active teams of the
      edition with a strictly greater total. */
  function TeamRanking(teams: seq<Team>, results: seq<TeamResult>, team: Team): (rank: nat)
    ensures 1 <= rank <= |teams| + 1
    ensures rank == 1 <==> forall i :: 0 <= i < |teams| && Competes(teams[i], team.edition) ==>
      TotalPoints(results, teams[i]) <= TotalPoints(results, team)
  {
    Ahead(teams, results, team.edition, TotalPoints(results, team)) + 1
  }

  /** The edition ranking starts at 1 and each further competing team with a
      greater total pushes the team down by exactly one. */
  lemma TeamRankingSnoc(teams: seq<Team>, x: Team, results: seq<TeamResult>, team: Team)
    ensures TeamRanking([], results, team) == 1
    ensures TeamRanking(teams + [x], results, team) == TeamRanking(teams, results, team) +
      (if Competes(x, team.edition) && TotalPoints(results, x) > TotalPoints(results, team) then 1 else 0)
  {
    AheadAppend(teams, [x], results, team.edition, TotalPoints(results, team));
    AheadOfOneTeam(x, results, team.edition, TotalPoints(results, team));
  }

  lemma {:induction false} AheadAntitone(teams: seq<Team>, results: seq<TeamResult>, e: EditionId, x: int, y: int)
    requires x >= y
    ensures Ahead(teams, results, e, x) <= Ahead(teams, results, e, y)
  {
    if |teams| > 0 {
      AheadAntitone(teams[1..], results, e, x, y);
    }
  }

  /** A team of the edition with at least the total of another never ranks
      below it; a team with the highest total ranks first. */
  lemma TeamRankingRespectsTotals(teams: seq<Team>, results: seq<TeamResult>, a: Team, b: Team)
    requires a.edition == b.edition
    requires TotalPoints(results, a) >= TotalPoints(results, b)
    ensures TeamRanking(teams, results, a) <= TeamRanking(teams, results, b)
  {
    AheadAntitone(teams, results, a.edition, TotalPoints(results, a), TotalPoints(results, b));
  }

  /** A competing team ranks no lower than one past the number of competing
      teams: it never counts itself. */
  lemma {:induction false} AheadExcludesSelf(teams: seq<Team>, results: seq<TeamResult>, team: Team)
    requires team in teams && Competes(team, team.edition)
    ensures Ahead(teams, results, team.edition, TotalPoints(results, team)) < |teams|
  {
    if teams[0] != team {
      AheadExcludesSelf(teams[1..], results, team);
    }
  }
}

=== FILE: referees.dfy ===
/**
 * Referee assignment for round-robin batches: how many games a team has
 * refereed, the last round it refereed in, and the choice among the teams
 * idle in a batch.
 */
module Referees {
  import opened Entities

  /** Which games a last-round query looks at: the scheduler filters them by
      discipline, the older copy inside `Discipline` does not. */
  datatype Scope = AllDisciplines | OnlyDiscipline(discipline: DisciplineId)

  /** `g` is an active game refereed by `t` that the query in `scope` sees. */
  predicate Officiated(g: Game, t: TeamId, scope: Scope) {
    g.active && g.referee == t && (scope.OnlyDiscipline? ==> g.discipline == scope.discipline)
  }

  /** `Game.objects.filter(referees__id=t, discipline__id=d, is_active=True).count()`. */
  function RefereeCount(store: seq<Game>, d: DisciplineId, t: TeamId): (c: nat)
    ensures c <= |store|
    ensures c == 0 <==> forall i :: 0 <= i < |store| ==> !Officiated(store[i], t, OnlyDiscipline(d))
  {
    if |store| == 0 then 0
    else
      var rest := RefereeCount(store[1..], d, t);
      assert forall i :: 1 <= i < |store| ==> store[i] == store[1..][i - 1];
      (if Officiated(store[0], t, OnlyDiscipline(d)) then 1 else 0) + rest
  }

  /** Refereed games add up over a concatenation of stores. */
  lemma {:induction false} RefereeCountAppend(a: seq<Game>, b: seq<Game>, d: DisciplineId, t: TeamId)
    ensures RefereeCount(a + b, d, t) == RefereeCount(a, d, t) + RefereeCount(b, d, t)
  {
    if |a| > 0 {
      assert (a + b)[0] == a[0];
      assert (a + b)[1..] == a[1..] + b;
      RefereeCountAppend(a[1..], b, d, t);
    } else {
      assert a + b == b;
    }
  }

  /** A single game counts once exactly when `t` refereed it, active, in
      discipline `d`; with `RefereeCountAppend` this fixes the count on every
      store. */
  lemma RefereeCountOfOneGame(g: Game, d: DisciplineId, t: TeamId)
    ensures RefereeCount([g], d, t) == if Officiated(g, t, OnlyDiscipline(d)) then 1 else 0
  {
    assert [g][1..] == [];
  }

  /** The order of the latest round in which `t` refereed an active game the
      query in `scope` sees, or -1 when there is none. */
  function LastRoundAsReferee(store: seq<Game>, scope: Scope, t: TeamId): (last: int)
    ensures last >= -1
    ensures last == -1 <==> forall i :: 0 <= i < |store| ==> !Officiated(store[i], t, scope)
    ensures forall i :: 0 <= i < |store| && Officiated(store[i], t, scope) ==> store[i].round <= last
    ensures last >= 0 ==> exists i :: 0 <= i < |store| && Officiated(store[i], t, scope) && store[i].round == last
  {
    if |store| == 0 then -1
    else
      var rest := LastRoundAsReferee(store[1..], scope, t);
      assert forall i :: 1 <= i < |store| ==> store[i] == store[1..][i - 1];
      if Officiated(store[0], t, scope) && store[0].round > rest then store[0].round else rest
  }

  /** The query of the scheduler module: restricted to discipline `d`. */
  function DisciplineLastRoundAsReferee(store: seq<Game>, d: DisciplineId, t: TeamId): (last: int)
    ensures last == -1 <==> forall i :: 0 <= i < |store| ==> !Officiated(store[i], t, OnlyDiscipline(d))
    ensures forall i :: 0 <= i < |store| && store[i].active && store[i].referee == t && store[i].discipline == d ==>
      store[i].round <= last
    ensures last >= 0 ==>
      exists i :: 0 <= i < |store| && store[i].active && store[i].referee == t && store[i].discipline == d && store[i].round == last
  {
    LastRoundAsReferee(store, OnlyDiscipline(d), t)
  }

  /** The older query inside `Discipline`: games of every discipline count. */
  function LegacyLastRoundAsReferee(store: seq<Game>, t: TeamId): (last: int)
    ensures last == -1 <==> forall i :: 0 <= i < |store| ==> !(store[i].active && store[i].referee == t)
    ensures forall i :: 0 <= i < |store| && store[i].active && store[i].referee == t ==> store[i].round <= last
    ensures last >= 0 ==> exists i :: 0 <= i < |store| && store[i].active && store[i].referee == t && store[i].round == last
  {
    LastRoundAsReferee(store, AllDisciplines, t)
  }

  /** `best` has the fewest refereed games among the first `upto` candidates. */
  ghost predicate FewestSoFar(cands: seq<TeamId>, upto: nat, store: seq<Game>, d: DisciplineId, best: TeamId)
    requires upto <= |cands|
  {
    && best in cands[..upto]
    && forall j :: 0 <= j < upto ==> RefereeCount(store, d, best) <= RefereeCount(store, d, cands[j])
  }

  /** Moving past candidate `i` without changing the best. */
  lemma KeepBest(cands: seq<TeamId>, i: nat, store: seq<Game>, d: DisciplineId, best: TeamId)
    requires i < |cands| && FewestSoFar(cands, i, store, d, best)
    requires RefereeCount(store, d, best) <= RefereeCount(store, d, cands[i])
    ensures FewestSoFar(cands, i + 1, store, d, best)
  {
    var k :| 0 <= k < i && cands[..i][k] == best;
    assert cands[..i + 1][k] == best;
  }

  /** Moving past candidate `i` by making it the best. */
  lemma TakeCandidate(cands: seq<TeamId>, i: nat, store: seq<Game>, d: DisciplineId, best: Option<TeamId>)
    requires i < |cands| && (best.None? <==> i == 0)
    requires best.Some? ==> FewestSoFar(cands, i, store, d, best.value)
    requires best.Some? ==> RefereeCount(store, d, cands[i]) <= RefereeCount(store, d, best.value)
    ensures FewestSoFar(cands, i + 1, store, d, cands[i])
  {
    assert cands[..i + 1][i] == cands[i];
  }

  /** One pass of the candidate loop, from candidate `i` on, with the loop
      state `best` (the best referee so far) and `cache` (the remembered last
      round of a tied best). The cache is filled when it is empty or holds 0
      (both are false in Python) and is never cleared. */
  function ScanCandidates(cands: seq<TeamId>, i: nat, store: seq<Game>, d: DisciplineId, scope: Scope,
                          best: Option<TeamId>, cache: Option<int>): (r: TeamId)
    requires i <= |cands|
    requires best.None? <==> i == 0
    requires i == 0 ==> |cands| > 0
    requires best.Some? ==> FewestSoFar(cands, i, store, d, best.value)
    ensures r in cands
    ensures forall j :: 0 <= j < |cands| ==> RefereeCount(store, d, r) <= RefereeCount(store, d, cands[j])
    decreases |cands| - i
  {
    if i == |cands| then
      assert cands[..i] == cands;
      best.value
    else
      var t := cands[i];
      var score := RefereeCount(store, d, t);
      if best.None? || score < RefereeCount(store, d, best.value) then
        TakeCandidate(cands, i, store, d, best);
        ScanCandidates(cands, i + 1, store, d, scope, Some(t), cache)
      else if score == RefereeCount(store, d, best.value) then
        var cache' := if cache.None? || cache.value == 0 then Some(LastRoundAsReferee(store, scope, best.value)) else cache;
        if LastRoundAsReferee(store, scope, t) < cache'.value then
          TakeCandidate(cands, i, store, d, best);
          ScanCandidates(cands, i + 1, store, d, scope, Some(t), cache')
        else
          KeepBest(cands, i, store, d, best.value);
          ScanCandidates(cands, i + 1, store, d, scope, best, cache')
      else
        KeepBest(cands, i, store, d, best.value);
        ScanCandidates(cands, i + 1, store, d, scope, best, cache)
  }

  /** The referee picked for one game from the idle teams `cands`, walked in
      order: a candidate with fewer refereed games in discipline `d` always
      wins; on a tie the candidate whose last round as referee is below the
      remembered one wins. */
  function ChooseReferee(cands: seq<TeamId>, store: seq<Game>, d: DisciplineId, scope: Scope): (r: TeamId)
    requires |cands| > 0
    ensures r in cands
    ensures forall c :: c in cands ==> RefereeCount(store, d, r) <= RefereeCount(store, d, c)
  {
    ScanCandidates(cands, 0, store, d, scope, None, None)
  }

  /** `a` should referee before `b`: fewer games refereed, or as many and
      refereed longer ago. */
  predicate RefereesFirst(store: seq<Game>, d: DisciplineId, scope: Scope, a: TeamId, b: TeamId) {
    || RefereeCount(store, d, a) < RefereeCount(store, d, b)
    || (RefereeCount(store, d, a) == RefereeCount(store, d, b)
        && LastRoundAsReferee(store, scope, a) <= LastRoundAsReferee(store, scope, b))
  }

  /** The choice the source's comments describe: fewest games refereed, then
      the team that refereed longest ago, then the earliest candidate. */
  function ChooseRefereeIntended(cands: seq<TeamId>, store: seq<Game>, d: DisciplineId, scope: Scope): (r: TeamId)
    requires |cands| > 0
    ensures r in cands
    ensures forall c :: c in cands ==> RefereesFirst(store, d, scope, r, c)
  {
    if |cands| == 1 then cands[0]
    else
      var rest := ChooseRefereeIntended(cands[1..], store, d, scope);
      assert forall c :: c in cands ==> c == cands[0] || c in cands[1..];
      if RefereesFirst(store, d, scope, cands[0], rest) then cands[0] else rest
  }

  /** Which tie-break the referee choice applies: the program's remembered
      round (`StaleCache`, what runs) or the rule its comments state
      (`LongestAgo`). */
  datatype TieBreak = StaleCache | LongestAgo

  /** The referee for one game under tie-break `tb`. */
  function PickReferee(tb: TieBreak, cands: seq<TeamId>, store: seq<Game>, d: DisciplineId, scope: Scope): (r: TeamId)
    requires |cands| > 0
    ensures r in cands
    ensures forall c :: c in cands ==> RefereeCount(store, d, r) <= RefereeCount(store, d, c)
    ensures tb == LongestAgo ==> forall c :: c in cands ==> RefereesFirst(store, d, scope, r, c)
  {
    match tb
    case StaleCache => ChooseReferee(cands, store, d, scope)
    case LongestAgo => ChooseRefereeIntended(cands, store, d, scope)
  }

  /** Three teams that have each refereed one game of discipline 1, in
      rounds 5, 3 and 4. */
  function TieStore(): (store: seq<Game>)
    ensures |store| == 3
  {
    [Game(1, 5, 4, 5, 1, 0, 0, true), Game(1, 3, 4, 5, 2, 0, 0, true), Game(1, 4, 4, 5, 3, 0, 0, true)]
  }

  lemma TieStoreStatistics()
    ensures RefereeCount(TieStore(), 1, 1) == 1
    ensures RefereeCount(TieStore(), 1, 2) == 1
    ensures RefereeCount(TieStore(), 1, 3) == 1
    ensures LastRoundAsReferee(TieStore(), OnlyDiscipline(1), 1) == 5
    ensures LastRoundAsReferee(TieStore(), OnlyDiscipline(1), 2) == 3
    ensures LastRoundAsReferee(TieStore(), OnlyDiscipline(1), 3) == 4
  {
    var store := TieStore();
    var s := OnlyDiscipline(1);
    assert store[1..][1..][1..] == [];
    assert RefereeCount(store[1..][1..][1..], 1, 1) == 0;
    assert RefereeCount(store[1..][1..][1..], 1, 2) == 0;
    assert RefereeCount(store[1..][1..][1..], 1, 3) == 0;
    assert LastRoundAsReferee(store[1..][1..][1..], s, 1) == -1;
    assert LastRoundAsReferee(store[1..][1..][1..], s, 2) == -1;
    assert LastRoundAsReferee(store[1..][1..][1..], s, 3) == -1;
  }

  /** On the store above every team has refereed once, so after candidates
      1, 2 team 2 is among the fewest, and after 1, 2, 3 team 3 is. */
  lemma TieStoreFewest()
    ensures FewestSoFar([1, 2, 3], 2, TieStore(), 1, 2)
    ensures FewestSoFar([1, 2, 3], 3, TieStore(), 1, 3)
  {
    TieStoreStatistics();
    var cands: seq<TeamId> := [1, 2, 3];
    assert cands[..3] == cands && cands[..2] == [1, 2];
  }

  /** The last two steps of the walk over 1, 2, 3 on the store above, with
      team 1's round 5 remembered: team 2 (round 3) takes over, then team 3
      (round 4 < 5) displaces it. */
  lemma TieStoreLastSteps()
    ensures FewestSoFar([1, 2, 3], 2, TieStore(), 1, 2)
    ensures ScanCandidates([1, 2, 3], 2, TieStore(), 1, OnlyDiscipline(1), Some(2), Some(5)) == 3
  {
    TieStoreStatistics();
    TieStoreFewest();
    var cands: seq<TeamId> := [1, 2, 3];
    assert ScanCandidates(cands, 3, TieStore(), 1, OnlyDiscipline(1), Some(3), Some(5)) == 3;
  }

  /** On the store above, with candidates walked as 1, 2, 3, the remembered
      round is that of team 1 (5) and is never refreshed, so team 3 (last
      round 4) displaces team 2 (last round 3), although team 2 refereed
      longer ago. */
  lemma StaleTieBreakCounterexample()
    ensures ChooseReferee([1, 2, 3], TieStore(), 1, OnlyDiscipline(1)) == 3
    ensures RefereeCount(TieStore(), 1, 2) == RefereeCount(TieStore(), 1, 3)
    ensures LastRoundAsReferee(TieStore(), OnlyDiscipline(1), 2) < LastRoundAsReferee(TieStore(), OnlyDiscipline(1), 3)
  {
    TieStoreStatistics();
    TieStoreLastSteps();
    var cands: seq<TeamId> := [1, 2, 3];
    assert cands[..2] == [1, 2] && cands[..1] == [1];
    assert ScanCandidates(cands, 1, TieStore(), 1, OnlyDiscipline(1), Some(1), None) == 3;
  }

  /** On the same store the intended choice is team 2. */
  lemma IntendedTieBreakExample()
    ensures ChooseRefereeIntended([1, 2, 3], TieStore(), 1, OnlyDiscipline(1)) == 2
  {
    TieStoreStatistics();
    var store := TieStore();
    var s := OnlyDiscipline(1);
    var cands: seq<TeamId> := [1, 2, 3];
    assert cands[1..] == [2, 3] && cands[1..][1..] == [3];
    assert ChooseRefereeIntended([3], store, 1, s) == 3;
    assert ChooseRefereeIntended([2, 3], store, 1, s) == 2;
  }
}

=== FILE: round_robin.dfy ===
/**
 * Round-robin fixture generation by the circle method, cut into batches of
 * simultaneous games whose referees are chosen among the teams idle in the
 * batch. Two copies exist in the source: the scheduler module and the older
 * `Discipline.schedule_games`; both are the same core here, parameterised
 * by the round count and the scope of the last-round query.
 */
module RoundRobin {
  import opened Entities
  import opened Referees

  datatype SchedulingError =
    | NotEnoughTeams   // the explicit `ValueError` for fewer than two teams
    | DivisionByZero   // `(n // 2) // (n // 3)` with n // 3 == 0

  /** The games of one round, batch by batch. */
  type RoundFixtures = seq<seq<Game>>

  /** What a successful run leaves behind: the discipline's `max_rounds`
      after the run and the games of each round created (round r has order r). */
  datatype Plan = Plan(maxRounds: int, rounds: seq<RoundFixtures>)

  /** Games played at the same time: a third of the teams, so that a third
      of them stay free to referee. */
  function SimultaneousGames(n: nat): nat { n / 3 }

  /** Batches per round. */
  function IterationsPerRound(n: nat): nat
    requires n >= 3
  {
    (n / 2) / SimultaneousGames(n)
  }

  /** The batch parameters leave room for every game of a round in the
      first half and keep enough idle teams to referee a batch. */
  lemma BatchParameters(n: nat)
    requires n >= 3
    ensures SimultaneousGames(n) >= 1
    ensures IterationsPerRound(n) >= 1
    ensures IterationsPerRound(n) * SimultaneousGames(n) <= n / 2
    ensures n - 2 * SimultaneousGames(n) >= SimultaneousGames(n)
  {
    var sg := SimultaneousGames(n);
    var q := IterationsPerRound(n);
    assert n / 2 == q * sg + (n / 2) % sg;
  }

  /** One more batch of `sg` games still fits in a half of `len` teams. */
  lemma NextBatchFits(iteration: nat, ipr: nat, sg: nat, len: nat)
    requires iteration < ipr && ipr * sg <= len
    ensures iteration * sg + sg == (iteration + 1) * sg <= len
  {
    assert (iteration + 1) * sg <= ipr * sg by {
      MulMonotone(iteration + 1, ipr, sg);
    }
  }

  lemma MulMonotone(a: nat, b: nat, c: nat)
    requires a <= b
    ensures a * c <= b * c
  {}

  /** Python's `list.insert(i, x)`: past the end it appends. */
  function InsertAt(s: seq<TeamId>, i: nat, x: TeamId): (r: seq<TeamId>)
    ensures |r| == |s| + 1
    ensures multiset(r) == multiset(s) + multiset{x}
    ensures i <= |s| ==> r[i] == x && r[..i] == s[..i] && r[i + 1..] == s[i..]
    ensures i > |s| ==> r == s + [x]
  {
    if i <= |s| then
      assert s == s[..i] + s[i..];
      s[..i] + [x] + s[i..]
    else s + [x]
  }

  /** The rotation after each round: `l2.append(l1.pop())` then
      `l1.insert(1, l2.pop(0))`. With two or more teams in the first half the
      team at its head stays, the head of `l2` moves in behind it, and the
      tail of `l1` moves to the end of `l2` (`RotatePositions`). */
  function Rotate(l1: seq<TeamId>, l2: seq<TeamId>): (r: (seq<TeamId>, seq<TeamId>))
    requires |l1| >= 1
    ensures |r.0| == |l1| && |r.1| == |l2|
    ensures multiset(r.0 + r.1) == multiset(l1 + l2)
    ensures |l1| >= 2 ==> r.0[0] == l1[0]
  {
    RotateKeepsTeams(l1, l2);
    var last := l1[|l1| - 1];
    var grown := l2 + [last];
    var rest := l1[..|l1| - 1];
    var moved := grown[0];
    (InsertAt(rest, 1, moved), grown[1..])
  }

  /** The rotation keeps the lengths and the teams. */
  lemma RotateKeepsTeams(l1: seq<TeamId>, l2: seq<TeamId>)
    requires |l1| >= 1
    ensures var grown := l2 + [l1[|l1| - 1]];
      var l1', l2' := InsertAt(l1[..|l1| - 1], 1, grown[0]), grown[1..];
      |l1'| == |l1| && |l2'| == |l2| && multiset(l1' + l2') == multiset(l1 + l2)
  {
    var last := l1[|l1| - 1];
    var grown := l2 + [last];
    var rest := l1[..|l1| - 1];
    var moved := grown[0];
    var l1' := InsertAt(rest, 1, moved);
    var l2' := grown[1..];
    assert l1 == rest + [last];
    assert grown == [moved] + l2';
    assert multiset(l1' + l2') == multiset(rest) + multiset{moved} + multiset(l2');
    assert multiset(l1' + l2') == multiset(rest) + multiset(grown);
    assert multiset(l1 + l2) == multiset(rest) + multiset{last} + multiset(l2);
  }

  /** Where the rotation puts each team: with two or more teams in the first
      half the head of the second half moves in behind its head, the rest of
      the first half shifts one place, and the last team of the first half
      joins the end of the second half; with one, the head of the second
      half replaces it. */
  lemma RotatePositions(l1: seq<TeamId>, l2: seq<TeamId>)
    requires |l1| >= 1
    ensures |l1| >= 2 && |l2| >= 1 ==>
      Rotate(l1, l2).0 == [l1[0], l2[0]] + l1[1..|l1| - 1] && Rotate(l1, l2).1 == l2[1..] + [l1[|l1| - 1]]
    ensures |l1| == 1 && |l2| >= 1 ==> Rotate(l1, l2).0 == [l2[0]] && Rotate(l1, l2).1 == l2[1..] + [l1[0]]
  {
    var last := l1[|l1| - 1];
    var grown := l2 + [last];
    var rest := l1[..|l1| - 1];
    var moved := grown[0];
    var l1' := InsertAt(rest, 1, moved);
    var l2' := grown[1..];
    assert Rotate(l1, l2) == (l1', l2');
    if |l2| >= 1 {
      assert moved == l2[0] && l2' == l2[1..] + [last];
    }
    if |l1| >= 2 {
      assert l1' == l1'[..1] + [l1'[1]] + l1'[2..];
      assert rest[1..] == l1[1..|l1| - 1];
    } else {
      assert rest == [];
    }
  }

  /** `list.reverse()`. */
  function Reverse(s: seq<TeamId>): (r: seq<TeamId>)
    ensures |r| == |s|
    ensures forall i :: 0 <= i < |s| ==> r[i] == s[|s| - 1 - i]
    ensures multiset(r) == multiset(s)
  {
    if |s| == 0 then []
    else
      assert s == [s[0]] + s[1..];
      Reverse(s[1..]) + [s[0]]
  }

  /** The two halves before the first round: the first half of the teams and
      the second half reversed. */
  function Halves(teams: seq<TeamId>): (h: (seq<TeamId>, seq<TeamId>))
  {
    (teams[..|teams| / 2], Reverse(teams[|teams| / 2..]))
  }

  /** The halves in force during round `r`: they keep their sizes, together
      always hold exactly the teams, and once the first half holds two teams
      its first team never moves. */
  function HalvesAt(teams: seq<TeamId>, r: nat): (h: (seq<TeamId>, seq<TeamId>))
    requires |teams| >= 2
    ensures |h.0| == |teams| / 2 && |h.1| == |teams| - |teams| / 2
    ensures multiset(h.0 + h.1) == multiset(teams)
    ensures |teams| >= 4 ==> h.0[0] == teams[0]
  {
    if r == 0 then
      assert teams == teams[..|teams| / 2] + teams[|teams| / 2..];
      Halves(teams)
    else
      var h := HalvesAt(teams, r - 1);
      Rotate(h.0, h.1)
  }

  /** With three teams the half holds one team, which the rotation replaces:
      the first team does move. */
  lemma ThreeTeamsRotateFirst()
    ensures HalvesAt([1, 2, 3], 1).0 == [3]
  {
    var teams: seq<TeamId> := [1, 2, 3];
    var h0 := HalvesAt(teams, 0);
    assert h0 == Halves(teams);
    assert h0.0 == [1] by {
      assert teams[..1] == [1];
    }
    var l1: seq<TeamId> := [1];
    var rest := l1[..0];
    assert rest == [];
    var h1 := Rotate(h0.0, h0.1);
    assert HalvesAt(teams, 1) == h1;
    assert h1.0 == InsertAt(rest, 1, (h0.1 + [1])[0]);
    assert (h0.1 + [1])[0] == h0.1[0];
    assert h0.1 == Reverse([2, 3]) by {
      assert teams[1..] == [2, 3];
    }
    assert h0.1[0] == 3 by {
      assert [2, 3][1..] == [3] && [3][1..] == [];
      assert Reverse([3]) == [3];
    }
  }

  /** Without repetitions among the teams, none among the halves either. */
  lemma HalvesAtDistinct(teams: seq<TeamId>, r: nat)
    requires |teams| >= 2 && Distinct(teams)
    ensures Distinct(HalvesAt(teams, r).0 + HalvesAt(teams, r).1)
    ensures forall x :: x in HalvesAt(teams, r).0 + HalvesAt(teams, r).1 ==> x in teams
  {
    var h := HalvesAt(teams, r);
    DistinctPermutation(teams, h.0 + h.1);
    forall x | x in h.0 + h.1 ensures x in teams {
      assert x in multiset(h.0 + h.1);
    }
  }

  /** `set.remove(x)` on the candidate teams, which never repeat. */
  function Remove(s: seq<TeamId>, x: TeamId): (r: seq<TeamId>)
    ensures forall y :: y in r <==> y in s && y != x
    ensures Distinct(s) ==> Distinct(r)
    ensures Distinct(s) && x in s ==> |r| == |s| - 1
    ensures x !in s ==> r == s
  {
    if |s| == 0 then []
    else
      var rest := Remove(s[1..], x);
      assert Distinct(s) ==> Distinct(s[1..]) && s[0] !in s[1..] by {
        if Distinct(s) {
          forall i, j | 0 <= i < j < |s[1..]| ensures s[1..][i] != s[1..][j] {
            assert s[1..][i] == s[i + 1] && s[1..][j] == s[j + 1];
          }
          forall k | 0 <= k < |s[1..]| ensures s[1..][k] != s[0] {
            assert s[1..][k] == s[k + 1];
          }
        }
      }
      assert forall y :: y in s <==> y == s[0] || y in s[1..];
      if s[0] == x then rest
      else
        assert Distinct(s) ==> Distinct([s[0]] + rest) by {
          if Distinct(s) {
            forall i, j | 0 <= i < j < |[s[0]] + rest| ensures ([s[0]] + rest)[i] != ([s[0]] + rest)[j] {
              if i > 0 {
                assert ([s[0]] + rest)[i] == rest[i - 1];
              }
              assert ([s[0]] + rest)[j] == rest[j - 1];
            }
          }
        }
        [s[0]] + rest
  }

  /** A freshly created game before its referee is chosen: team1 stands in. */
  function Placeholder(d: DisciplineId, order: nat, team1: TeamId, team2: TeamId): Game {
    Game(d, order, team1, team2, team1, 0, 0, true)
  }

  /** `batch` pairs `l1[start + k]` with `l2[start + k]` in round `order` of
      discipline `d`, refereed by one of `teams`. */
  ghost predicate BatchFollows(batch: seq<Game>, l1: seq<TeamId>, l2: seq<TeamId>, start: nat,
                               teams: seq<TeamId>, d: DisciplineId, order: nat)
  {
    forall k :: 0 <= k < |batch| ==>
      && start + k < |l1| && start + k < |l2|
      && batch[k].(referee := batch[k].team1) == Placeholder(d, order, l1[start + k], l2[start + k])
      && batch[k].referee in teams
  }

  /** No team referees a game of the batch while playing in it, and no team
      referees two games of the batch. */
  ghost predicate RefereesIdle(batch: seq<Game>) {
    && (forall j, k :: 0 <= j < |batch| && 0 <= k < |batch| ==>
          batch[j].referee != batch[k].team1 && batch[j].referee != batch[k].team2)
    && (forall j, k :: 0 <= j < k < |batch| ==> batch[j].referee != batch[k].referee)
  }

  /** The teams of `teams` that play none of the games `start`..`start + k - 1`. */
  ghost predicate IdleAfter(leftover: seq<TeamId>, teams: seq<TeamId>, l1: seq<TeamId>, l2: seq<TeamId>, start: nat, k: nat)
    requires start + k <= |l1| && start + k <= |l2|
  {
    forall x :: x in leftover <==> x in teams && x !in l1[start..start + k] && x !in l2[start..start + k]
  }

  /** `c` is still free to referee when game `k` of the batch gets its
      referee: it was available and none of the games before took it. */
  ghost predicate StillAvailable(available: seq<TeamId>, batch: seq<Game>, k: nat, c: TeamId)
    requires k <= |batch|
  {
    c in available && forall i :: 0 <= i < k ==> batch[i].referee != c
  }

  /** Games `0 .. j - 1` of `batch` each got a referee with no more refereed
      games than any team still free at its turn, counted in the store the
      query saw then (the earlier games with their referees, the later ones
      as created); under the corrected tie-break the referee also precedes
      every such team in (games refereed, last round refereed) order. */
  ghost predicate ChosenFairly(store: seq<Game>, placeholders: seq<Game>, available: seq<TeamId>, batch: seq<Game>,
                               j: nat, d: DisciplineId, scope: Scope, tb: TieBreak)
    requires j <= |batch| == |placeholders|
  {
    && (forall k, c :: 0 <= k < j && StillAvailable(available, batch, k, c) ==>
          RefereeCount(store + batch[..k] + placeholders[k..], d, batch[k].referee)
          <= RefereeCount(store + batch[..k] + placeholders[k..], d, c))
    && (tb == LongestAgo ==> forall k, c :: 0 <= k < j && StillAvailable(available, batch, k, c) ==>
          RefereesFirst(store + batch[..k] + placeholders[k..], d, scope, batch[k].referee, c))
  }

  /** The state of the assignment loop before game `j` gets its referee:
      the games from `j` on are as created, the earlier ones differ from
      them only by distinct referees taken from `available`, `leftover`
      holds exactly the teams still free, and the choices so far were fair. */
  ghost predicate AssignState(store: seq<Game>, placeholders: seq<Game>, available: seq<TeamId>, batch: seq<Game>,
                              leftover: seq<TeamId>, j: nat, d: DisciplineId, scope: Scope, tb: TieBreak)
  {
    && j <= |placeholders| == |batch| <= |available|
    && batch[j..] == placeholders[j..]
    && (forall i :: 0 <= i < |batch| ==> batch[i] == placeholders[i].(referee := batch[i].referee))
    && (forall i :: 0 <= i < j ==> batch[i].referee in available)
    && (forall i, i' :: 0 <= i < i' < j ==> batch[i].referee != batch[i'].referee)
    && Distinct(leftover) && |leftover| == |available| - j
    && (forall x :: x in leftover <==> StillAvailable(available, batch, j, x))
    && ChosenFairly(store, placeholders, available, batch, j, d, scope, tb)
  }

  /** `_assign_referees`: each game in turn gets the referee picked (under
      tie-break `tb`) from the teams still available, which is then dropped
      from them. */
  method AssignReferees(store: seq<Game>, placeholders: seq<Game>, available: seq<TeamId>, d: DisciplineId, scope: Scope, tb: TieBreak)
    returns (batch: seq<Game>)
    requires Distinct(available) && |placeholders| <= |available|
    ensures |batch| == |placeholders|
    ensures forall i :: 0 <= i < |batch| ==> batch[i] == placeholders[i].(referee := batch[i].referee)
    ensures forall i :: 0 <= i < |batch| ==> batch[i].referee in available
    ensures forall i, i' :: 0 <= i < i' < |batch| ==> batch[i].referee != batch[i'].referee
    ensures ChosenFairly(store, placeholders, available, batch, |batch|, d, scope, tb)
  {
    var leftover := available;
    batch := placeholders;
    var j := 0;
    while j < |placeholders|
      invariant AssignState(store, placeholders, available, batch, leftover, j, d, scope, tb)
      decreases |placeholders| - j
    {
      var best := PickReferee(tb, leftover, store + batch, d, scope);
      AssignStep(store, placeholders, available, batch, leftover, j, d, scope, tb, best);
      batch := batch[j := batch[j].(referee := best)];
      leftover := Remove(leftover, best);
      j := j + 1;
    }
  }

  /** One turn of the assignment loop: game `j` takes the referee `best`
      picked from the teams still free, which leaves them. */
  lemma AssignStep(store: seq<Game>, placeholders: seq<Game>, available: seq<TeamId>, batch: seq<Game>,
                   leftover: seq<TeamId>, j: nat, d: DisciplineId, scope: Scope, tb: TieBreak, best: TeamId)
    requires AssignState(store, placeholders, available, batch, leftover, j, d, scope, tb) && j < |placeholders|
    requires best in leftover
    requires forall c :: c in leftover ==> RefereeCount(store + batch, d, best) <= RefereeCount(store + batch, d, c)
    requires tb == LongestAgo ==> forall c :: c in leftover ==> RefereesFirst(store + batch, d, scope, best, c)
    ensures AssignState(store, placeholders, available, batch[j := batch[j].(referee := best)], Remove(leftover, best),
                        j + 1, d, scope, tb)
  {
    var batch' := batch[j := batch[j].(referee := best)];
    FairStep(store, placeholders, available, batch, j, d, scope, tb, best);
    assert batch'[j + 1..] == placeholders[j + 1..] by {
      assert batch'[j + 1..] == batch[j + 1..];
    }
    forall x ensures StillAvailable(available, batch', j + 1, x) <==> StillAvailable(available, batch, j, x) && x != best {
      assert forall i :: 0 <= i < j ==> batch'[i] == batch[i];
      assert batch'[j].referee == best;
    }
  }

  /** The fairness of the choices so far survives the choice of `best` for
      game `j`. */
  lemma FairStep(store: seq<Game>, placeholders: seq<Game>, available: seq<TeamId>, batch: seq<Game>,
                 j: nat, d: DisciplineId, scope: Scope, tb: TieBreak, best: TeamId)
    requires j < |batch| == |placeholders|
    requires batch[j..] == placeholders[j..]
    requires forall c :: StillAvailable(available, batch, j, c) ==>
      RefereeCount(store + batch, d, best) <= RefereeCount(store + batch, d, c)
    requires tb == LongestAgo ==> forall c :: StillAvailable(available, batch, j, c) ==>
      RefereesFirst(store + batch, d, scope, best, c)
    requires ChosenFairly(store, placeholders, available, batch, j, d, scope, tb)
    ensures ChosenFairly(store, placeholders, available, batch[j := batch[j].(referee := best)], j + 1, d, scope, tb)
  {
    var batch' := batch[j := batch[j].(referee := best)];
    assert batch == batch[..j] + placeholders[j..] by {
      assert batch == batch[..j] + batch[j..];
    }
    forall k | 0 <= k <= j
      ensures batch'[..k] == batch[..k]
      ensures forall c :: StillAvailable(available, batch', k, c) == StillAvailable(available, batch, k, c)
    {
      assert forall i :: 0 <= i < k ==> batch'[i] == batch[i];
    }
    assert batch'[j].referee == best;
    assert store + batch'[..j] + placeholders[j..] == store + batch;
  }

  /** Facts about the two halves that `Distinct(l1 + l2)` gives. */
  lemma HalvesApart(l1: seq<TeamId>, l2: seq<TeamId>, teams: seq<TeamId>)
    requires Distinct(l1 + l2) && forall x :: x in l1 + l2 ==> x in teams
    ensures forall j, k :: 0 <= j < |l1| && 0 <= k < |l2| ==> l1[j] != l2[k]
    ensures forall j, k :: 0 <= j < k < |l1| ==> l1[j] != l1[k]
    ensures forall j, k :: 0 <= j < k < |l2| ==> l2[j] != l2[k]
    ensures forall j :: 0 <= j < |l1| ==> l1[j] in teams
    ensures forall j :: 0 <= j < |l2| ==> l2[j] in teams
  {
    forall j, k | 0 <= j < |l1| && 0 <= k < |l2| ensures l1[j] != l2[k] {
      assert (l1 + l2)[j] == l1[j] && (l1 + l2)[|l1| + k] == l2[k];
    }
    forall j, k | 0 <= j < k < |l1| ensures l1[j] != l1[k] {
      assert (l1 + l2)[j] == l1[j] && (l1 + l2)[k] == l1[k];
    }
    forall j, k | 0 <= j < k < |l2| ensures l2[j] != l2[k] {
      assert (l1 + l2)[|l1| + j] == l2[j] && (l1 + l2)[|l1| + k] == l2[k];
    }
    forall j | 0 <= j < |l1| ensures l1[j] in teams {
      assert (l1 + l2)[j] == l1[j];
    }
    forall j | 0 <= j < |l2| ensures l2[j] in teams {
      assert (l1 + l2)[|l1| + j] == l2[j];
    }
  }

  /** The game-creation loop of `_create_round_iterations`: the `sg` games
      `l1[start + k]` vs `l2[start + k]` with team1 standing in as referee,
      and the team ids left once their players are dropped. */
  method CreateGames(l1: seq<TeamId>, l2: seq<TeamId>, teams: seq<TeamId>,
                     d: DisciplineId, order: nat, start: nat, sg: nat)
    returns (placeholders: seq<Game>, leftover: seq<TeamId>)
    requires Distinct(teams) && 2 * sg <= |teams|
    requires forall j, k :: 0 <= j < |l1| && 0 <= k < |l2| ==> l1[j] != l2[k]
    requires forall j, k :: 0 <= j < k < |l1| ==> l1[j] != l1[k]
    requires forall j, k :: 0 <= j < k < |l2| ==> l2[j] != l2[k]
    requires forall j :: 0 <= j < |l1| ==> l1[j] in teams
    requires forall j :: 0 <= j < |l2| ==> l2[j] in teams
    requires start + sg <= |l1| <= |l2|
    ensures |placeholders| == sg
    ensures forall j :: 0 <= j < sg ==> placeholders[j] == Placeholder(d, order, l1[start + j], l2[start + j])
    ensures Distinct(leftover) && |leftover| == |teams| - 2 * sg
    ensures IdleAfter(leftover, teams, l1, l2, start, sg)
  {
    placeholders := seq(sg, j requires 0 <= j < sg => Placeholder(d, order, l1[start + j], l2[start + j]));
    leftover := teams;
    var k := 0;
    while k < sg
      invariant 0 <= k <= sg
      invariant Distinct(leftover) && |leftover| == |teams| - 2 * k
      invariant IdleAfter(leftover, teams, l1, l2, start, k)
    {
      IdleStep(leftover, teams, l1, l2, start, k);
      leftover := Remove(Remove(leftover, l1[start + k]), l2[start + k]);
      k := k + 1;
    }
  }

  /** Dropping the two players of game `start + k` from the idle teams. */
  lemma IdleStep(leftover: seq<TeamId>, teams: seq<TeamId>, l1: seq<TeamId>, l2: seq<TeamId>, start: nat, k: nat)
    requires start + k < |l1| && start + k < |l2|
    requires forall j, i :: 0 <= j < |l1| && 0 <= i < |l2| ==> l1[j] != l2[i]
    requires forall j, i :: 0 <= j < i < |l1| ==> l1[j] != l1[i]
    requires forall j, i :: 0 <= j < i < |l2| ==> l2[j] != l2[i]
    requires l1[start + k] in teams && l2[start + k] in teams
    requires Distinct(leftover) && IdleAfter(leftover, teams, l1, l2, start, k)
    ensures var rest := Remove(Remove(leftover, l1[start + k]), l2[start + k]);
      && Distinct(rest) && |rest| == |leftover| - 2
      && IdleAfter(rest, teams, l1, l2, start, k + 1)
  {
    var a := l1[start + k];
    var b := l2[start + k];
    assert l1[start..start + k + 1] == l1[start..start + k] + [a];
    assert l2[start..start + k + 1] == l2[start..start + k] + [b];
    assert a !in l1[start..start + k] && a !in l2[start..start + k] by {
      forall j | start <= j < start + k ensures l1[j] != a && l2[j] != a {}
    }
    assert b !in l1[start..start + k] && b !in l2[start..start + k] by {
      forall j | start <= j < start + k ensures l1[j] != b && l2[j] != b {}
    }
    assert a in leftover;
    var once := Remove(leftover, a);
    assert b in once;
  }

  /** The games as created, before any referee is chosen: team1 stands in. */
  function Unrefereed(games: seq<Game>): (r: seq<Game>)
    ensures |r| == |games|
    ensures forall i :: 0 <= i < |games| ==> r[i] == games[i].(referee := games[i].team1)
  {
    seq(|games|, i requires 0 <= i < |games| => games[i].(referee := games[i].team1))
  }

  /** The store the referee query sees when game `k` of `batch` gets its
      referee: the games before it with their referees, the others as
      created. */
  function SeenAt(store: seq<Game>, batch: seq<Game>, k: nat): (seen: seq<Game>)
    requires k <= |batch|
    ensures |seen| == |store| + |batch|
  {
    store + batch[..k] + Unrefereed(batch)[k..]
  }

  /** Team `c` plays in no game of `batch`. */
  ghost predicate SitsOut(batch: seq<Game>, c: TeamId) {
    forall i :: 0 <= i < |batch| ==> batch[i].team1 != c && batch[i].team2 != c
  }

  /** Team `c` is free to referee game `k` of `batch`: one of the teams,
      playing in no game of the batch, and not taken by an earlier game. */
  ghost predicate IdleAt(teams: seq<TeamId>, batch: seq<Game>, k: nat, c: TeamId)
    requires k <= |batch|
  {
    c in teams && SitsOut(batch, c) && forall i :: 0 <= i < k ==> batch[i].referee != c
  }

  /** Every game of `batch`, in turn, got a referee with no more refereed
      games than any team then free, counted in the store the query saw;
      under the corrected tie-break it also precedes every free team in
      (games refereed, last round refereed) order. */
  ghost predicate FairReferees(store: seq<Game>, batch: seq<Game>, teams: seq<TeamId>, d: DisciplineId, scope: Scope, tb: TieBreak) {
    && (forall k, c :: 0 <= k < |batch| && IdleAt(teams, batch, k, c) ==>
          RefereeCount(SeenAt(store, batch, k), d, batch[k].referee) <= RefereeCount(SeenAt(store, batch, k), d, c))
    && (tb == LongestAgo ==> forall k, c :: 0 <= k < |batch| && IdleAt(teams, batch, k, c) ==>
          RefereesFirst(SeenAt(store, batch, k), d, scope, batch[k].referee, c))
  }

  /** `_create_round_iterations`: create the `sg` games `l1[start + k]` vs
      `l2[start + k]`, drop their players from a fresh copy of the team ids,
      then assign referees from the teams left. The store grows by the
      batch. */
  method PlayBatch(l1: seq<TeamId>, l2: seq<TeamId>, teams: seq<TeamId>, store: seq<Game>,
                   d: DisciplineId, order: nat, start: nat, sg: nat, scope: Scope, tb: TieBreak)
    returns (batch: seq<Game>, store': seq<Game>)
    requires Distinct(teams) && 3 * sg <= |teams|
    requires Distinct(l1 + l2) && forall x :: x in l1 + l2 ==> x in teams
    requires start + sg <= |l1| <= |l2|
    ensures store' == store + batch
    ensures |batch| == sg
    ensures BatchFollows(batch, l1, l2, start, teams, d, order)
    ensures RefereesIdle(batch)
    ensures FairReferees(store, batch, teams, d, scope, tb)
  {
    HalvesApart(l1, l2, teams);
    var placeholders, leftover := CreateGames(l1, l2, teams, d, order, start, sg);
    batch := AssignReferees(store, placeholders, leftover, d, scope, tb);
    store' := store + batch;
    assert Unrefereed(batch) == placeholders;
    forall k, c | 0 <= k < |batch| && IdleAt(teams, batch, k, c)
      ensures SeenAt(store, batch, k) == store + batch[..k] + placeholders[k..]
      ensures StillAvailable(leftover, batch, k, c)
    {
      var played1, played2 := l1[start..start + sg], l2[start..start + sg];
      forall i | 0 <= i < sg ensures played1[i] != c && played2[i] != c {
        assert batch[i].team1 == l1[start + i] && batch[i].team2 == l2[start + i];
      }
    }
    forall q, r | 0 <= q < |batch| && 0 <= r < |batch|
      ensures batch[q].referee != batch[r].team1 && batch[q].referee != batch[r].team2
    {
      assert batch[r].team1 == l1[start + r] && batch[r].team2 == l2[start + r];
    }
  }

  /** The games of `batches`, in the order they were created. */
  function Flatten(batches: seq<seq<Game>>): (games: seq<Game>)
    decreases |batches|
  {
    if |batches| == 0 then [] else Flatten(batches[..|batches| - 1]) + batches[|batches| - 1]
  }

  /** The games of `rounds`, in the order they were created. */
  function FlattenRounds(rounds: seq<RoundFixtures>): (games: seq<Game>)
    decreases |rounds|
  {
    if |rounds| == 0 then [] else FlattenRounds(rounds[..|rounds| - 1]) + Flatten(rounds[|rounds| - 1])
  }

  /** The store after one more batch: the batch's games come last. */
  lemma FlattenAppend(store: seq<Game>, batches: seq<seq<Game>>, batch: seq<Game>)
    ensures store + Flatten(batches + [batch]) == store + Flatten(batches) + batch
  {
    assert (batches + [batch])[..|batches|] == batches;
  }

  /** The store after one more round: the round's games come last. */
  lemma FlattenRoundsAppend(history: seq<Game>, rounds: seq<RoundFixtures>, batches: RoundFixtures)
    ensures history + FlattenRounds(rounds + [batches]) == history + FlattenRounds(rounds) + Flatten(batches)
  {
    assert (rounds + [batches])[..|rounds|] == rounds;
  }

  /** Batch `b` of round `order` has `sg` games that follow the round's
      halves from game `b * sg` on, and its referees are idle in it and were
      chosen fairly against `seen`, the store before the batch. */
  ghost predicate BatchOk(batch: seq<Game>, b: nat, seen: seq<Game>, teams: seq<TeamId>, d: DisciplineId, order: nat, sg: nat,
                          scope: Scope, tb: TieBreak)
    requires |teams| >= 2
  {
    && |batch| == sg
    && BatchFollows(batch, HalvesAt(teams, order).0, HalvesAt(teams, order).1, b * sg, teams, d, order)
    && RefereesIdle(batch)
    && FairReferees(seen, batch, teams, d, scope, tb)
  }

  /** `batches` follow the halves of round `order` from the start, batch `b`
      taking the games `b * sg` .. `b * sg + sg - 1`, and each batch's
      referees were chosen fairly against `store` and the batches before it. */
  ghost predicate RoundFollows(batches: RoundFixtures, teams: seq<TeamId>, d: DisciplineId, order: nat, sg: nat,
                               store: seq<Game>, scope: Scope, tb: TieBreak)
    requires |teams| >= 2
  {
    forall b :: 0 <= b < |batches| ==> BatchOk(batches[b], b, store + Flatten(batches[..b]), teams, d, order, sg, scope, tb)
  }

  /** The fixtures of rounds 0 .. |rounds| - 1 created on top of `history`,
      each with `ipr` batches; defined one round at a time, read back per
      round by `RoundOfPlan`. */
  ghost predicate PlanFollows(rounds: seq<RoundFixtures>, teams: seq<TeamId>, d: DisciplineId,
                              history: seq<Game>, scope: Scope, tb: TieBreak)
    requires |teams| >= 3
    decreases |rounds|
  {
    || |rounds| == 0
    || (&& PlanFollows(rounds[..|rounds| - 1], teams, d, history, scope, tb)
        && |rounds[|rounds| - 1]| == IterationsPerRound(|teams|)
        && RoundFollows(rounds[|rounds| - 1], teams, d, |rounds| - 1, SimultaneousGames(|teams|),
                        history + FlattenRounds(rounds[..|rounds| - 1]), scope, tb))
  }

  lemma RoundFollowsAppend(batches: RoundFixtures, batch: seq<Game>, teams: seq<TeamId>, d: DisciplineId, order: nat, sg: nat,
                           store: seq<Game>, scope: Scope, tb: TieBreak)
    requires |teams| >= 2
    requires RoundFollows(batches, teams, d, order, sg, store, scope, tb)
    requires BatchOk(batch, |batches|, store + Flatten(batches), teams, d, order, sg, scope, tb)
    ensures RoundFollows(batches + [batch], teams, d, order, sg, store, scope, tb)
  {
    var all := batches + [batch];
    assert forall b :: 0 <= b < |batches| ==> all[b] == batches[b] && all[..b] == batches[..b];
    assert all[..|batches|] == batches;
  }

  /** Round `r` of a plan has `ipr` batches that follow the halves of
      round `r`, chosen against the history and the rounds before it. */
  lemma {:induction false} RoundOfPlan(rounds: seq<RoundFixtures>, teams: seq<TeamId>, d: DisciplineId,
                                       history: seq<Game>, scope: Scope, tb: TieBreak, r: nat)
    requires |teams| >= 3
    requires PlanFollows(rounds, teams, d, history, scope, tb) && r < |rounds|
    ensures |rounds[r]| == IterationsPerRound(|teams|)
    ensures RoundFollows(rounds[r], teams, d, r, SimultaneousGames(|teams|), history + FlattenRounds(rounds[..r]), scope, tb)
    decreases |rounds|
  {
    var prefix := rounds[..|rounds| - 1];
    if r < |rounds| - 1 {
      RoundOfPlan(prefix, teams, d, history, scope, tb, r);
      assert prefix[r] == rounds[r] && prefix[..r] == rounds[..r];
    } else {
      assert rounds[..r] == prefix;
    }
  }

  /** A plan grown by one round follows the schedule exactly when the plan
      did and the new round follows the halves of its order, against the
      history and every game of the plan. */
  lemma PlanFollowsAppend(rounds: seq<RoundFixtures>, batches: RoundFixtures, teams: seq<TeamId>, d: DisciplineId,
                          history: seq<Game>, scope: Scope, tb: TieBreak)
    requires |teams| >= 3
    ensures PlanFollows(rounds + [batches], teams, d, history, scope, tb) <==>
      && PlanFollows(rounds, teams, d, history, scope, tb)
      && |batches| == IterationsPerRound(|teams|)
      && RoundFollows(batches, teams, d, |rounds|, SimultaneousGames(|teams|), history + FlattenRounds(rounds), scope, tb)
  {
    var all := rounds + [batches];
    assert all[..|all| - 1] == rounds;
    assert all[|all| - 1] == batches;
  }

  /** One round: `IterationsPerRound` batches over the halves of round `r`,
      batch `b` starting at game index `b * sg`, each batch's referees chosen
      against the store grown by the batches before it. */
  method PlayRound(teams: seq<TeamId>, store: seq<Game>, d: DisciplineId, r: nat, scope: Scope, tb: TieBreak)
    returns (batches: RoundFixtures, store': seq<Game>)
    requires |teams| >= 3 && Distinct(teams)
    ensures |batches| == IterationsPerRound(|teams|)
    ensures RoundFollows(batches, teams, d, r, SimultaneousGames(|teams|), store, scope, tb)
    ensures store' == store + Flatten(batches)
  {
    var n := |teams|;
    var sg := SimultaneousGames(n);
    var ipr := IterationsPerRound(n);
    BatchParameters(n);
    HalvesAtDistinct(teams, r);
    var l1 := HalvesAt(teams, r).0;
    var l2 := HalvesAt(teams, r).1;
    assert |l1| == n / 2 <= |l2|;
    assert Distinct(l1 + l2) && forall x :: x in l1 + l2 ==> x in teams;
    batches := [];
    store' := store;
    var iteration := 0;
    var gameIndex := 0;
    while iteration < ipr
      invariant 0 <= iteration <= ipr
      invariant |batches| == iteration
      invariant gameIndex == iteration * sg
      invariant RoundFollows(batches, teams, d, r, sg, store, scope, tb)
      invariant store' == store + Flatten(batches)
    {
      NextBatchFits(iteration, ipr, sg, |l1|);
      var batch, grown := PlayBatch(l1, l2, teams, store', d, r, gameIndex, sg, scope, tb);
      RoundFollowsAppend(batches, batch, teams, d, r, sg, store, scope, tb);
      FlattenAppend(store, batches, batch);
      batches := batches + [batch];
      store' := grown;
      gameIndex := gameIndex + sg;
      iteration := iteration + 1;
    }
  }

  /** The round loop shared by both copies: `roundCount` rounds, the halves
      rotated after each round. The games created so far are visible to
      later referee choices. */
  method ScheduleRounds(teams: seq<TeamId>, history: seq<Game>, d: DisciplineId, roundCount: nat, scope: Scope, tb: TieBreak)
    returns (rounds: seq<RoundFixtures>)
    requires |teams| >= 3 && Distinct(teams)
    ensures |rounds| == roundCount
    ensures PlanFollows(rounds, teams, d, history, scope, tb)
  {
    var store := history;
    rounds := [];
    var r := 0;
    while r < roundCount
      invariant 0 <= r <= roundCount
      invariant |rounds| == r
      invariant PlanFollows(rounds, teams, d, history, scope, tb)
      invariant store == history + FlattenRounds(rounds)
    {
      var batches, grown := PlayRound(teams, store, d, r, scope, tb);
      PlanFollowsAppend(rounds, batches, teams, d, history, scope, tb);
      FlattenRoundsAppend(history, rounds, batches);
      rounds := rounds + [batches];
      store := grown;
      r := r + 1;
    }
  }

  /** The round count the scheduler uses: the discipline's `max_rounds`,
      replaced by n - 1 when it is unset or zero. */
  function EffectiveMaxRounds(maxRounds: Option<int>, n: nat): int {
    if maxRounds.None? || maxRounds.value == 0 then n - 1 else maxRounds.value
  }

  /** `schedule_round_robin_games`: fails before creating anything with fewer
      than two teams, divides by zero with exactly two, otherwise plays
      `max_rounds` rounds (n - 1 when unset or zero) of full batches.
      `tb == StaleCache` is the program as written. */
  method ScheduleRoundRobin(teams: seq<TeamId>, history: seq<Game>, d: DisciplineId, maxRounds: Option<int>, tb: TieBreak)
    returns (result: Result<Plan, SchedulingError>)
    requires Distinct(teams)
    ensures |teams| < 2 ==> result == Err(NotEnoughTeams)
    ensures |teams| == 2 ==> result == Err(DivisionByZero)
    ensures |teams| >= 3 ==> result.Ok?
    ensures result.Ok? ==> |teams| >= 3 && PlanFollows(result.value.rounds, teams, d, history, OnlyDiscipline(d), tb)
    ensures result.Ok? ==> result.value.maxRounds == (if maxRounds.None? || maxRounds.value == 0 then |teams| - 1 else maxRounds.value)
    ensures result.Ok? ==> |result.value.rounds| == (if result.value.maxRounds < 0 then 0 else result.value.maxRounds)
  {
    if |teams| < 2 {
      return Err(NotEnoughTeams);
    }
    if SimultaneousGames(|teams|) == 0 {
      return Err(DivisionByZero);
    }
    var max := EffectiveMaxRounds(maxRounds, |teams|);
    var count: nat := if max < 0 then 0 else max;
    var rounds := ScheduleRounds(teams, history, d, count, OnlyDiscipline(d), tb);
    return Ok(Plan(max, rounds));
  }

  /** `Discipline.schedule_games`, the older copy: no guard (any n < 3 divides
      by zero), always n - 1 rounds, `max_rounds` left untouched, and the
      last-round query counts games of every discipline. `tb == StaleCache`
      is the program as written. */
  method LegacyScheduleGames(teams: seq<TeamId>, history: seq<Game>, d: DisciplineId, tb: TieBreak)
    returns (result: Result<seq<RoundFixtures>, SchedulingError>)
    requires Distinct(teams)
    ensures |teams| < 3 <==> result == Err(DivisionByZero)
    ensures result.Ok? ==> |teams| >= 3 && |result.value| == |teams| - 1 && PlanFollows(result.value, teams, d, history, AllDisciplines, tb)
  {
    if SimultaneousGames(|teams|) == 0 {
      return Err(DivisionByZero);
    }
    var rounds := ScheduleRounds(teams, history, d, |teams| - 1, AllDisciplines, tb);
    return Ok(rounds);
  }
}

=== FILE: rugby.dfy ===
/**
 * Rugby scoring: the value of a try is read off the events logged before it,
 * newest first, and saving a try adds that value to the scorer's side.
 */
module Rugby {
  import opened Entities

  datatype RugbyKind = Try | Tackle | Foul | Outbounds

  /** A logged event; `team` is the team of the event's first player. */
  datatype RugbyEvent = RugbyEvent(kind: RugbyKind, team: TeamId)

  /** The value a try starts from. */
  const FullTry := 3

  /** The scan of `process_try_points` from `points` on, over the earlier
      events of the game, newest first. */
  function TryScan(scorer: TeamId, log: seq<RugbyEvent>, points: int): (r: int)
    ensures r <= points
    ensures r >= points - |log|
  {
    if |log| == 0 then points
    else
      var e := log[0];
      match e.kind
      case Try => points
      case Outbounds => points
      case Tackle => if e.team == scorer then points else TryScan(scorer, log[1..], points - 1)
      case Foul => if e.team == scorer then points else TryScan(scorer, log[1..], points)
  }

  /** `process_try_points`: what a try by `scorer` is worth. */
  function TryPoints(scorer: TeamId, log: seq<RugbyEvent>): (r: int)
    ensures r <= FullTry
    ensures |log| == 0 ==> r == FullTry
  {
    TryScan(scorer, log, FullTry)
  }

  /** The event stops the scan: a try, a ball out of bounds, or a tackle or
      foul by the scorer's own team. */
  predicate Stops(scorer: TeamId, e: RugbyEvent) {
    e.kind == Try || e.kind == Outbounds || ((e.kind == Tackle || e.kind == Foul) && e.team == scorer)
  }

  /** The position of the newest stopping event, or `|log|` when none stops. */
  function StopIndex(scorer: TeamId, log: seq<RugbyEvent>): (k: nat)
    ensures k <= |log|
    ensures k < |log| ==> Stops(scorer, log[k])
    ensures forall i :: 0 <= i < k ==> !Stops(scorer, log[i])
  {
    if |log| == 0 then 0
    else if Stops(scorer, log[0]) then 0
    else
      var k := StopIndex(scorer, log[1..]);
      assert forall i :: 1 <= i < |log| ==> log[1..][i - 1] == log[i];
      1 + k
  }

  /** The tackles made by the other side in `log`. */
  function OpposingTackles(scorer: TeamId, log: seq<RugbyEvent>): (n: nat)
    ensures n <= |log|
  {
    if |log| == 0 then 0
    else (if log[0].kind == Tackle && log[0].team != scorer then 1 else 0) + OpposingTackles(scorer, log[1..])
  }

  /** The scan takes one point off per opposing tackle until the first
      stopping event. */
  lemma {:induction false} TryScanCountsTackles(scorer: TeamId, log: seq<RugbyEvent>, points: int)
    ensures TryScan(scorer, log, points) == points - OpposingTackles(scorer, log[..StopIndex(scorer, log)])
  {
    var k := StopIndex(scorer, log);
    if |log| == 0 {
      assert log[..k] == [];
    } else if Stops(scorer, log[0]) {
      assert log[..k] == [];
    } else {
      var rest := log[1..];
      var next := if log[0].kind == Tackle then points - 1 else points;
      TryScanCountsTackles(scorer, rest, next);
      assert k == 1 + StopIndex(scorer, rest);
      assert log[..k][1..] == rest[..StopIndex(scorer, rest)];
    }
  }

  /** The try value is three less the opposing tackles since the last stop. */
  lemma TryValue(scorer: TeamId, log: seq<RugbyEvent>)
    ensures TryPoints(scorer, log) == FullTry - OpposingTackles(scorer, log[..StopIndex(scorer, log)])
  {
    TryScanCountsTackles(scorer, log, FullTry);
  }

  /** `RugbyEvent.save`: a try adds its value to the score of the scorer's
      side (team2 whenever the scorer is not team1); other events leave the
      game as it is. */
  function SaveRugbyEvent(game: Game, ev: RugbyEvent, log: seq<RugbyEvent>): (g: Game)
    ensures ev.kind != Try ==> g == game
    ensures g == game.(score1 := g.score1, score2 := g.score2)
    ensures ev.kind == Try && ev.team == game.team1 ==>
      g.score1 == game.score1 + TryPoints(ev.team, log) && g.score2 == game.score2
    ensures ev.kind == Try && ev.team != game.team1 ==>
      g.score2 == game.score2 + TryPoints(ev.team, log) && g.score1 == game.score1
  {
    if ev.kind != Try then game
    else
      var points := TryPoints(ev.team, log);
      if game.team1 == ev.team then game.(score1 := game.score1 + points)
      else game.(score2 := game.score2 + points)
  }

  /** A saved try raises the total score by at most three, and by exactly
      three when no opposing tackle came since the last stop. */
  lemma TryRaisesTotalByAtMostThree(game: Game, ev: RugbyEvent, log: seq<RugbyEvent>)
    requires ev.kind == Try
    ensures SaveRugbyEvent(game, ev, log).score1 + SaveRugbyEvent(game, ev, log).score2 <= game.score1 + game.score2 + FullTry
    ensures OpposingTackles(ev.team, log[..StopIndex(ev.team, log)]) == 0 ==>
      SaveRugbyEvent(game, ev, log).score1 + SaveRugbyEvent(game, ev, log).score2 == game.score1 + game.score2 + FullTry
  {
    TryValue(ev.team, log);
  }
}

=== FILE: swiss.dfy ===
/**
 * Swiss next-round pairing: one new round in which teams adjacent in the
 * standings play each other.
 */
module Swiss {
  import opened Entities

  /** Comparing the next order with an unset `max_rounds` raises `TypeError`. */
  datatype SwissError = MaxRoundsUnset

  datatype SwissOutcome =
    | NoNewRound                                  // past `max_rounds`: nothing is created
    | NewRound(round: Round, games: seq<Game>)

  /** The standing key the store orders results by: points, then time. */
  predicate NotAbove(a: TeamResult, b: TeamResult) {
    a.points < b.points || (a.points == b.points && a.time <= b.time)
  }

  /** `order_by('points', 'time')`. */
  ghost predicate Ascending(standings: seq<TeamResult>) {
    forall i, j :: 0 <= i < j < |standings| ==> NotAbove(standings[i], standings[j])
  }

  /** The highest order among the active rounds of discipline `d`, if any. */
  function LastActiveOrder(rounds: seq<Round>, d: DisciplineId): (last: Option<nat>)
    ensures last.None? <==> forall i :: 0 <= i < |rounds| ==> !(rounds[i].active && rounds[i].discipline == d)
    ensures last.Some? ==> exists i :: 0 <= i < |rounds| && rounds[i].active && rounds[i].discipline == d && rounds[i].order == last.value
    ensures last.Some? ==> forall i :: 0 <= i < |rounds| && rounds[i].active && rounds[i].discipline == d ==> rounds[i].order <= last.value
  {
    if |rounds| == 0 then None
    else
      var rest := LastActiveOrder(rounds[1..], d);
      assert forall i :: 1 <= i < |rounds| ==> rounds[i] == rounds[1..][i - 1];
      if !(rounds[0].active && rounds[0].discipline == d) then rest
      else if rest.Some? && rest.value >= rounds[0].order then rest
      else Some(rounds[0].order)
  }

  /** The order of the round to create: one past the last active round, or 0. */
  function NextOrder(rounds: seq<Round>, d: DisciplineId): (next: nat)
    ensures forall i :: 0 <= i < |rounds| && rounds[i].active && rounds[i].discipline == d ==> rounds[i].order < next
    ensures next == 0 <==> forall i :: 0 <= i < |rounds| ==> !(rounds[i].active && rounds[i].discipline == d)
    ensures next > 0 ==> exists i :: 0 <= i < |rounds| && rounds[i].active && rounds[i].discipline == d && rounds[i].order == next - 1
  {
    match LastActiveOrder(rounds, d)
    case None => 0
    case Some(o) => o + 1
  }

  /** The game of one Swiss pair: team1 also stands in as referee. */
  function SwissGame(d: DisciplineId, order: nat, team1: TeamId, team2: TeamId): Game {
    Game(d, order, team1, team2, team1, 0, 0, true)
  }

  /** Games for standings positions 2k and 2k + 1; an odd last team is left out. */
  function PairUp(standings: seq<TeamResult>, d: DisciplineId, order: nat): (games: seq<Game>)
    ensures |games| == |standings| / 2
    ensures forall k :: 0 <= k < |games| ==>
      games[k] == SwissGame(d, order, standings[2 * k].team, standings[2 * k + 1].team)
  {
    if |standings| < 2 then []
    else
      var rest := PairUp(standings[2..], d, order);
      assert forall k :: 0 <= k < |rest| ==>
        standings[2..][2 * k] == standings[2 * (k + 1)] && standings[2..][2 * k + 1] == standings[2 * (k + 1) + 1];
      [SwissGame(d, order, standings[0].team, standings[1].team)] + rest
  }

  /** `schedule_swiss_games`: the round after the last active one, unless its
      order exceeds `max_rounds`; the round is created even when fewer than
      two results exist, and teams are paired two by two in the given order. */
  function SwissNextRound(d: DisciplineId, rounds: seq<Round>, maxRounds: Option<int>, standings: seq<TeamResult>)
    : (r: Result<SwissOutcome, SwissError>)
    requires Ascending(standings)
    ensures maxRounds.None? <==> r == Err(MaxRoundsUnset)
    ensures maxRounds.Some? && NextOrder(rounds, d) > maxRounds.value ==> r == Ok(NoNewRound)
    ensures maxRounds.Some? && NextOrder(rounds, d) <= maxRounds.value ==>
      && r.Ok? && r.value.NewRound?
      && r.value.round == Round(d, NextOrder(rounds, d), true)
      && |r.value.games| == |standings| / 2
    ensures r.Ok? && r.value.NewRound? ==> forall k :: 0 <= k < |r.value.games| ==>
      && r.value.games[k].team1 == standings[2 * k].team
      && r.value.games[k].team2 == standings[2 * k + 1].team
      && r.value.games[k].referee == r.value.games[k].team1
      && r.value.games[k].round == r.value.round.order
      && r.value.games[k].discipline == d
      && NotAbove(standings[2 * k], standings[2 * k + 1])
  {
    if maxRounds.None? then Err(MaxRoundsUnset)
    else
      var order := NextOrder(rounds, d);
      if order > maxRounds.value then Ok(NoNewRound)
      else Ok(NewRound(Round(d, order, true), PairUp(standings, d, order)))
  }

  /** The teams of the standings, in order. */
  function TeamsOf(standings: seq<TeamResult>): (teams: seq<TeamId>)
    ensures |teams| == |standings|
    ensures forall i :: 0 <= i < |standings| ==> teams[i] == standings[i].team
  {
    if |standings| == 0 then [] else [standings[0].team] + TeamsOf(standings[1..])
  }

  /** Everyone who plays, game by game: team1, then team2. */
  function Players(games: seq<Game>): (players: seq<TeamId>)
    ensures |players| == 2 * |games|
  {
    if |games| == 0 then [] else [games[0].team1, games[0].team2] + Players(games[1..])
  }

  /** The players of the new round are exactly the standings in order, without
      the last team when their number is odd. */
  lemma {:induction false} PairUpPlaysInOrder(standings: seq<TeamResult>, d: DisciplineId, order: nat)
    ensures Players(PairUp(standings, d, order)) == TeamsOf(standings[..2 * (|standings| / 2)])
  {
    if |standings| >= 2 {
      var rest := standings[2..];
      PairUpPlaysInOrder(rest, d, order);
      var games := PairUp(standings, d, order);
      assert games[1..] == PairUp(rest, d, order);
      assert standings[..2 * (|standings| / 2)] == standings[..2] + rest[..2 * (|rest| / 2)];
      var lhs := Players(games);
      var rhs := TeamsOf(standings[..2 * (|standings| / 2)]);
      assert |lhs| == |rhs|;
      forall i | 0 <= i < |lhs| ensures lhs[i] == rhs[i] {
        if i >= 2 {
          assert lhs[i] == Players(games[1..])[i - 2];
          assert rhs[i] == TeamsOf(rest[..2 * (|rest| / 2)])[i - 2];
        }
      }
    } else {
      assert standings[..2 * (|standings| / 2)] == [];
    }
  }

  /** With distinct teams, no team plays twice in the new round, and an odd
      last team does not play. */
  lemma NoTeamPlaysTwice(standings: seq<TeamResult>, d: DisciplineId, order: nat)
    requires forall i, j :: 0 <= i < j < |standings| ==> standings[i].team != standings[j].team
    ensures Distinct(Players(PairUp(standings, d, order)))
    ensures |standings| % 2 == 1 ==> standings[|standings| - 1].team !in Players(PairUp(standings, d, order))
  {
    PairUpPlaysInOrder(standings, d, order);
    var prefix := standings[..2 * (|standings| / 2)];
    assert forall i :: 0 <= i < |prefix| ==> prefix[i] == standings[i];
  }

  /** The comparison is `>`, so a round whose order equals `max_rounds` is
      still created: with `max_rounds` = 0 and no round yet, round 0 is made,
      and after it, with order 0 present, so is nothing more. */
  lemma RoundAtMaxRoundsIsCreated(d: DisciplineId, standings: seq<TeamResult>)
    requires Ascending(standings)
    ensures SwissNextRound(d, [], Some(0), standings).Ok?
    ensures SwissNextRound(d, [], Some(0), standings).value.NewRound?
    ensures SwissNextRound(d, [Round(d, 0, true)], Some(0), standings) == Ok(NoNewRound)
  {
    assert NextOrder([Round(d, 0, true)], d) == 1;
  }
}
